=== FILE: README.md ===
# Miyuki download-and-assemble core, in Dafny

Miyuki downloads a MissAV movie as a run of numbered segment files and joins
them into one `.mp4`. This project models the sequential core of
`miyuki/miyuki.py` and proves properties of it:

- **Intervals** (`intervals.dfy`): `split_integer_into_intervals`. The
  segment count is cut into `n` contiguous half-open ranges, one per download
  worker, and the last range takes the remainder. For `n >= 1` and a
  non-negative count the ranges partition `[0, count)` exactly.
- **Encoders** (`encoders.dfy`):
  - `ffmpeg_get_encoders` is a function from the text of `ffmpeg -encoders`
    to encoder names. A listing with no `------` rule, or a tagged line with
    no second token, is an error result, just as the source raises.
  - `encoder_selection` is a method that does the source's remove/insert list
    surgery. It is proved equal to a functional specification. That
    specification is proved to permute its input, to fall back to
    `["copy"]`, and to order one flavour's matches exactly. The matches come
    first, in *reverse* input order, followed by the other encoders in their
    input order.
- **Progress** (`progress.dfy`): the loop that reads ffmpeg's `key=value`
  progress lines.
  - A fold `Apply`/`Run` describes its effect, and the method `Monitor` is
    proved to compute that fold.
  - The `total_size` unit step-down (`while size > 1000`) is a method,
    `StepDownUnit`. It is proved to pick the least `j` with
    `n <= 1000^(j+1)`.
- **Counter** (`counter.dfy`): `ThreadSafeCounter` as a class with one
  mutable field, in its sequential meaning.
- **Assembly** (`assembly.dfy`): `video_write_jpegs_to_mp4` and
  `generate_input_txt`.
  - The file system is a map from path to bytes, so segment paths are built
    exactly as the source builds them.
  - Both loops are methods. They are proved to produce, in index order, the
    present segments' bytes and the concat-list lines of the present
    segments.
- **Helpers** (`helpers.dfy`):
  - `find_last_non_empty_line`, as a method proved against a specification.
  - The uuid reversal, with its round trip.
  - The three argument checks.
- **Text** (`text.dfy`): the Python `str` operations the code relies on,
  written out over `seq<char>`: `strip`, `split`, `join`, `in`, `str(n)`,
  `int(s)`, `splitlines` and list reversal.

Some behaviour of the code is easy to misread:

- `encoder_selection` returns `["copy"]` for `[]` and also for `["copy"]`.
  The contract states that empty input gives `["copy"]` and any other input
  gives a permutation of itself.
- A progress line counts only when splitting at `=` gives exactly two parts.
  Lines with two or more `=` are skipped like lines with none.
- A `total_size` above `1000^5` exhausts the unit list and raises
  (`UnitsExhausted`); it is not rendered in TB.
- A `frame` or `total_size` value that `int()` rejects raises out of the
  monitor (`NotAnInteger`); it is not skipped.
- `bitrate` and `speed` start as the integer `0`. The model starts them as
  the text `"0"`.

## Model

| member | source | states |
|---|---|---|
| Intervals.SplitIntoIntervals | miyuki/miyuki.py:340-348 | exactly `n` ranges; the first starts at 0 and the last ends at `integer`; each ends where the next starts; all but the last have length `integer // n`; the last has length `integer // n + integer % n`; none runs backwards when `integer >= 0` |
| Intervals.PartitionCoversExactly | miyuki/miyuki.py:340-348 | for `integer >= 0` every range lies within `[0, integer]`, every index below `integer` is in some range, and no index is in two ranges |
| Intervals.FewerSegmentsThanWorkers | miyuki/miyuki.py:340-348 | with fewer segments than workers the first `n - 1` ranges are `(0,0)` and the last is `(0, integer)` |
| Intervals.TenOverThree | miyuki/miyuki.py:340-348 | ten segments over three workers give `(0,3),(3,6),(6,10)` |
| Text.Strip | miyuki/miyuki.py:149 | `strip()` is a slice of its input with only whitespace cut off on each side; it is empty exactly when the input is blank; otherwise it neither starts nor ends with whitespace |
| Text.JoinSplit | miyuki/miyuki.py:368 | joining the pieces of `s.split(c)` with `c` gives `s` back |
| Text.SplitJoin | miyuki/miyuki.py:368 | splitting a join gives back its pieces, when no piece contains the separator |
| Text.SplitCount | miyuki/miyuki.py:270 | `s.split(c)` has one piece more than `s` has occurrences of `c` |
| Text.ParseIntOfDecimal | miyuki/miyuki.py:274 | `int(str(n) + ws)` is `n` for any trailing whitespace |
| Text.SplitLinesTerminated | miyuki/miyuki.py:404 | `splitlines()` recovers the lines of newline-terminated text whose lines contain no line break |
| Text.SplitLinesUnterminated | miyuki/miyuki.py:404 | `splitlines()` recovers the lines of text whose last line has no newline after it, as a playlist without a final newline |
| Text.NatToStringInjective | miyuki/miyuki.py:102 | distinct numbers have distinct `str()` renderings |
| Text.NatToString | miyuki/miyuki.py:102 | `str(i)` is a non-empty run of ASCII digits with no leading zero unless `i` is 0 |
| Text.ParseInt | miyuki/miyuki.py:274 | `int()` succeeds exactly when the stripped text is an optionally signed, non-empty run of ASCII digits |
| Text.Split | miyuki/miyuki.py:270 | `str.split(c)` gives at least one piece and no piece contains `c` |
| Text.SplitLines | miyuki/miyuki.py:404 | `splitlines()` gives lines that contain no line break, and none exactly when the text is empty |
| Text.Find | miyuki/miyuki.py:149 | the index of the first occurrence of the pattern: it occurs there and at no earlier index; none exactly when it occurs nowhere |
| Helpers.UuidFromMatch | miyuki/miyuki.py:367-368 | the uuid never contains the page's group separator (the vertical bar); text without that separator is its own uuid |
| Encoders.UpperAscii | miyuki/miyuki.py:146 | `etype.upper()`: same length; each lower-case ASCII letter is raised and every other character kept |
| Encoders.EncoderBlock | miyuki/miyuki.py:149 | `split("------")[1]`: an error exactly when the listing has no `------`; otherwise a piece that contains no rule |
| Encoders.EncoderBlockOfListing | miyuki/miyuki.py:149 | for a legend without the rule, followed by the rule and a body without it, the block is the body |
| Encoders.EncoderBlockBetweenRules | miyuki/miyuki.py:149 | when a second rule follows the body, the block is exactly the text between the first two rules |
| Encoders.CleanLines | miyuki/miyuki.py:149 | stripping the lines and dropping the empty ones leaves only non-empty lines, no more than there were |
| Encoders.DropEmpty | miyuki/miyuki.py:149 | `filter(None, …)` keeps exactly the non-empty strings |
| Encoders.PickNames | miyuki/miyuki.py:152 | an error exactly when some line tagged with the type has no second token; otherwise a name is yielded exactly when some tagged line has it as its non-empty second token |
| Encoders.PickNamesErrors | miyuki/miyuki.py:152 | the only error picking names can raise is a missing name |
| Encoders.FilterFlavors | miyuki/miyuki.py:154-156 | keeps exactly the names that contain some flavour |
| Encoders.ParseEncoders | miyuki/miyuki.py:145-158 | `NoEncoderBlock` exactly when the listing has no rule; every name is non-empty and has no space; with flavours given, every name contains one |
| Encoders.ParseEncodersExact | miyuki/miyuki.py:145-158 | a name is returned exactly when a cleaned line of the encoder block yields it for the upper-cased type and, when flavours are given, it contains one of them |
| Encoders.RemoveFirst | miyuki/miyuki.py:190 | `list.remove(x)`: one element shorter, with no new members, and every member other than `x` kept |
| Encoders.RemoveFirstAt | miyuki/miyuki.py:190 | `list.remove(x)` takes out the first `x` and keeps every other element in order |
| Encoders.Insert | miyuki/miyuki.py:191 | `list.insert(i, x)`: the list with `x` placed at `min(i, len)` and every other element kept in its order around it |
| Encoders.MoveTo | miyuki/miyuki.py:190-191 | remove then insert keeps the same members |
| Encoders.MoveToAt | miyuki/miyuki.py:190-191 | remove then insert takes out the first `e` and puts it at `min(index, len - 1)`, the other elements keeping their order |
| Encoders.MoveMatches | miyuki/miyuki.py:188-191 | one flavour's pass keeps the same members |
| Encoders.SortByFlavors | miyuki/miyuki.py:187-191 | the passes for all flavours keep the same members |
| Encoders.RemoveFirstPermutes | miyuki/miyuki.py:190 | `remove(x)` takes exactly one `x` out of the multiset |
| Encoders.InsertPermutes | miyuki/miyuki.py:191 | `insert` adds exactly one `x` to the multiset |
| Encoders.MoveToPermutes | miyuki/miyuki.py:190-191 | remove then insert leaves the multiset unchanged |
| Encoders.MoveMatchesPermutes | miyuki/miyuki.py:188-191 | one flavour's pass leaves the multiset unchanged |
| Encoders.SortByFlavorsPermutes | miyuki/miyuki.py:187-191 | all passes leave the multiset unchanged |
| Encoders.EncoderSelection | miyuki/miyuki.py:185-192 | the result is never empty; empty input gives `["copy"]`; any other input gives a permutation of itself |
| Encoders.SelectEncoders | miyuki/miyuki.py:185-192 | the nested remove/insert loops compute the specification: `["copy"]` for empty input, else a permutation of the input |
| Encoders.SingleFlavorOrder | miyuki/miyuki.py:187-191 | with one flavour and distinct encoders, the result is the matching encoders in reverse input order followed by the others in input order |
| Encoders.FirstPassFront | miyuki/miyuki.py:188-191 | after the first flavour's pass, the first element matches that flavour when any element does |
| Encoders.LaterPassFront | miyuki/miyuki.py:188-191 | a later flavour's pass leaves the first element in place when it does not match that flavour |
| Encoders.LaterFlavorsFront | miyuki/miyuki.py:187-191 | the passes of later flavours keep the first element when it matches none of them |
| Encoders.FirstPickHasTopFlavor | miyuki/miyuki.py:185-192 | when some encoder has the top flavour and no such encoder also has a later flavour, the pick contains the top flavour |
| Encoders.HevcPickedFirst | miyuki/miyuki.py:185-192 | flavours `hevc, h264` over `h264_nvenc, hevc_nvenc, vp9` pick `hevc_nvenc` first |
| Progress.Steps | miyuki/miyuki.py:279-281 | the number of divisions is a `j` with `n <= 1000^(j+1)` and, when `j > 0`, `n > 1000^j`; it is below five exactly when `n <= 1000^5` |
| Progress.StepsLeast | miyuki/miyuki.py:279-281 | for every `i` below the step count, `n > 1000^(i+1)`, so the loop went on |
| Progress.SameSteps | miyuki/miyuki.py:279-281 | any `j` meeting those bounds is the step count, so the count is unique |
| Progress.SizeUnit | miyuki/miyuki.py:276-282 | an error exactly when `n > 1000^5`; otherwise the unit at the step count |
| Progress.StepDownUnit | miyuki/miyuki.py:276-282 | the `while size > 1000` loop with its unit pops computes `SizeUnit` |
| Progress.SmallSizesInBytes | miyuki/miyuki.py:279 | any size up to 1000 stays in `B` (the test is strict) |
| Progress.MegabyteExample | miyuki/miyuki.py:276-282 | 2500000 bytes are shown in `MB` |
| Progress.Entry | miyuki/miyuki.py:270-272 | a key and value exactly when the line has one `=`; the line is key, `=`, value; neither contains `=` |
| Progress.EntryOf | miyuki/miyuki.py:270 | `key=value` with no `=` in either splits into exactly that key and value |
| Progress.Apply | miyuki/miyuki.py:269-284 | a line without a single `=` changes nothing; only `frame` and `total_size` can fail, and a value of theirs that `int()` rejects fails with `NotAnInteger` of that value; each field changes only when the line's key names it |
| Progress.Run | miyuki/miyuki.py:260-284 | lines that all lack a single `=` leave the figures unchanged; a failed fold contains a `frame` or `total_size` line |
| Progress.UnknownKeyIgnored | miyuki/miyuki.py:273-284 | a key other than the four known ones changes nothing |
| Progress.EndOfOutputIgnored | miyuki/miyuki.py:266-272 | the empty line read at end of output changes nothing |
| Progress.FrameLine | miyuki/miyuki.py:274 | `frame=<n>` with trailing whitespace sets the frame to `n` |
| Progress.SpeedLine | miyuki/miyuki.py:284 | `speed=<v>` stores `v` stripped |
| Progress.TotalSizeLine | miyuki/miyuki.py:276-282 | `total_size=<n>` records `n` bytes in the unit of the step count, or fails when `n > 1000^5` |
| Progress.ApplyText | miyuki/miyuki.py:275-284 | a `bitrate` or `speed` line stores its value stripped |
| Progress.ApplyParsed | miyuki/miyuki.py:274-282 | a `frame` or `total_size` line whose value `int()` reads as `n` stores `n`, or for sizes the unit, or the exhaustion error |
| Progress.DecimalEntry | miyuki/miyuki.py:270-274 | `key=<digits><ws>` splits into the key and a value `int()` reads back |
| Progress.Monitor | miyuki/miyuki.py:260-284 | the read loop, starting from frame 0, bitrate and speed at `"0"` and no size yet, computes the fold of `Apply` over the lines |
| Progress.RunKeepsUnmentioned | miyuki/miyuki.py:273-284 | a field whose key no line carries ends as it started |
| Progress.RunAppend | miyuki/miyuki.py:265-284 | folding two batches of lines is folding the first and then the second, and an error stops the fold |
| Counter.ThreadSafeCounter.constructor | miyuki/miyuki.py:62-64 | a new counter is 0 |
| Counter.ThreadSafeCounter.IncrementAndGet | miyuki/miyuki.py:66-69 | adds one and returns the new count |
| Counter.ThreadSafeCounter.Reset | miyuki/miyuki.py:71-73 | sets the count to 0 |
| Counter.ThreadSafeCounter.GetCount | miyuki/miyuki.py:75-77 | returns the count without changing it |
| Counter.CountRound | miyuki/miyuki.py:473-476 | after a reset, `k` increments return `1, 2, …, k` and leave the count at `k` |
| Assembly.SegmentPathInjective | miyuki/miyuki.py:102 | distinct segment indices of one movie have distinct paths |
| Assembly.SegmentUrlInjective | miyuki/miyuki.py:99 | distinct segment indices have distinct download URLs |
| Assembly.SegmentPath | miyuki/miyuki.py:102 | a segment is saved in the movie's folder under the root, with the `.jpeg` extension |
| Assembly.SegmentUrl | miyuki/miyuki.py:99 | a segment is fetched from the movie's uuid and resolution folder on the host, with the `.jpeg` extension |
| Assembly.Mp4Path | miyuki/miyuki.py:109 | the movie is written next to its folder under the root, with the `.mp4` extension |
| Assembly.OutputsAreNotSegments | miyuki/miyuki.py:109 | neither the `.mp4` nor the concat list is ever a segment path |
| Assembly.PresentIndices | miyuki/miyuki.py:112-117 | the indices the scan keeps are below the bound and all present, and there are no more of them than the bound |
| Assembly.PresentIndicesAscending | miyuki/miyuki.py:112 | the kept indices are strictly increasing |
| Assembly.PresentIndicesComplete | miyuki/miyuki.py:112-121 | every present index below the bound is kept |
| Assembly.JoinedStep | miyuki/miyuki.py:112-117 | scanning one more index appends that segment's bytes if it is present, and nothing otherwise |
| Assembly.WriteSegmentsToMp4 | miyuki/miyuki.py:108-128 | the store gains `<name>.mp4` holding the present segments' bytes in index order; the count is the number of present segments |
| Assembly.ListStep | miyuki/miyuki.py:305-309 | scanning one more index appends its `file '<path>'` line if the segment is present |
| Assembly.ScannedListTerminated | miyuki/miyuki.py:304-309 | the scan's text is one newline-terminated list line per present index, in order |
| Assembly.GenerateInputTxt | miyuki/miyuki.py:301-315 | the concat list is one `file '<path>'` line per present segment, in index order, and the count is their number |
| Assembly.CountsAgree | miyuki/miyuki.py:301-309 | the count is at most `video_offset_max + 1`, and the list has one line per counted segment |
| Assembly.SegmentPathSingle | miyuki/miyuki.py:306 | a segment path contains no line break when the movie name contains none |
| Assembly.ListReadsBack | miyuki/miyuki.py:309 | read back with `splitlines()`, the list has one line per present segment, in order, each naming its path |
| Assembly.GapIndices | miyuki/miyuki.py:112-121 | with segment `m + 2` missing and `m`, `m + 1`, `m + 3` present, the scan keeps the three present ones |
| Assembly.GapExample | miyuki/miyuki.py:112-121 | a store of segments `m`, `m + 1` and `m + 3`: the scan keeps exactly those, and the movie is their bytes in that order |
| Helpers.LastNonBlank | miyuki/miyuki.py:403-408 | the position of a non-blank line after which every line is blank; none exactly when all lines are blank |
| Helpers.FindLastNonEmptyLine | miyuki/miyuki.py:403-408 | the backward walk returns the last non-blank line of `splitlines()`, or signals the exception when there is none |
| Helpers.LastNonBlankStep | miyuki/miyuki.py:405-407 | looking one line further back finds that line when it is not blank, and goes on otherwise |
| Helpers.TrailingBlankLinesIgnored | miyuki/miyuki.py:403-408 | blank lines after the text do not change the line found |
| Helpers.FoundLineIsOneLine | miyuki/miyuki.py:404 | the line found contains no line break |
| Helpers.UuidGroups | miyuki/miyuki.py:367-368 | the uuid's `-` groups are the page's `|` groups reversed, so there are as many `-` as `|` |
| Helpers.UuidRoundTrip | miyuki/miyuki.py:367-368 | splitting the uuid at `-`, reversing and joining with `|` gives the page's text back |
| Helpers.ThreeGroups | miyuki/miyuki.py:367-368 | `a|b|c` becomes `c-b-a` |
| Helpers.CheckSingleNonNone | miyuki/miyuki.py:500-502 | true exactly when one of the five arguments is given and the other four are not |
| Helpers.CheckAuth | miyuki/miyuki.py:516-523 | true exactly when no credentials were given or there are exactly two of them, a username and a password |
| Helpers.CheckLimit | miyuki/miyuki.py:526-533 | true exactly when no limit was given, or it is a run of digits with at least one non-zero digit |
| Helpers.PositiveIffNonZeroDigit | miyuki/miyuki.py:530-531 | a run of digits denotes a positive number exactly when one of its digits is not `0` |
| Helpers.AcceptedLimitParses | miyuki/miyuki.py:526-533 | a limit the check accepts reads back through `int()` as a positive number |
| Helpers.CheckLimitAsWritten | miyuki/miyuki.py:526-533 | as written, the check raises exactly on an `isdigit()` string that `int()` rejects; otherwise it agrees with `CheckLimit` |
| Helpers.IsDigitsParses | miyuki/miyuki.py:530-531 | on an `isdigit()` string, `int()` succeeds exactly when every digit is ASCII |
| Helpers.SuperscriptLimitRaises | miyuki/miyuki.py:530-531 | the limit `²` makes the check as written raise; the corrected check refuses it |

## Left out

- The network: `https_request_with_retry`, uuid and playlist fetching, cover download, login and search. The uuid reversal is modelled on the text that the page regex captures.
- Threads: `thread_task` and `video_download_jpegs` fan the download out over threads and join them. Only the counter's sequential meaning is modelled, and the lock is left out.
- Subprocesses: `_ffmpeg_get_encoders`, the encoder benchmark and the `Popen` loop. The listing text and the progress lines are parameters. The order of the benchmark's `set` result is not modelled, so selection takes any input order.
- `@cache` on the encoder selectors: memoisation does not change any result.
- `Encoders.UpperAscii`: only ASCII letters are raised, while Python's `upper()` also maps other letters (`'ß'` becomes `"SS"`). The callers pass only the one-letter tags `'a'` and `'v'`, where the two agree.
- `Encoders.ParseEncoders`: the source returns a lazy `filter`, so a tagged line without a name raises only when the benchmark reaches it, after the encoders before it have run. The model reports that error before any encoder is used.
- Floating point: the rendered `round(size, 2)` value, the progress-bar length and the percentages in the logs. `Sized` keeps the exact byte count together with the unit the loop picks.
- `display_progress_bar` rendering and all `print`/`logging` output. `CountRound` keeps the values the bar would show.
- argparse, `main`, `validate_args`, `check_ffmpeg_command`, `check_file`, folder creation and deletion, the record files, and `order_url_by_tags_match`.
- Python's `isdigit()` and `int()` are modelled on ASCII digits only: non-ASCII decimal digits and `_` separators in `int()` are not modelled, and `PythonIsDigit` adds only the three superscript digits. `strip()` and `splitlines()` use Python's full whitespace and line-break sets.
- `WriteSegmentsToMp4`: only a missing segment file is skipped. Any other read exception (`except Exception` at line 122) is not modelled.
- `GenerateInputTxt`: the concat list is returned as text rather than written to the store, because the list file is opened in text mode.
- `Intervals.SplitIntoIntervals`: `n <= 0` is excluded by its precondition. The source raises `ZeroDivisionError` for `n == 0`, and for negative `n` the assignment to `intervals[-1]` raises on an empty list.
- `Encoders.SingleFlavorOrder`: it is stated for distinct encoder names only. `remove` drops the first equal element, and the benchmark's `set` guarantees distinct names.
- `Encoders.CleanLines`: membership (which stripped lines survive) is stated through `DropEmpty`. It is not restated for the stripping step.
- `Encoders.FirstPickHasTopFlavor`: it needs the top-flavour encoders to match no later flavour. A later flavour's pass moves its match to that flavour's index, which can push the first element back.

## Findings

| source | as written | input that shows it | evidently intended | confidence | as-written member | corrected member |
|---|---|---|---|---|---|---|
| miyuki/miyuki.py:530-531 | `limit.isdigit()` guards `int(limit)`, but `isdigit` accepts superscript digits, which `int()` rejects with `ValueError` | `-limit ²` | refuse the limit (return `False`) so the usage error is reported | not executed | Helpers.CheckLimitAsWritten, Helpers.SuperscriptLimitRaises | Helpers.CheckLimit |

=== FILE: assembly.dfy ===
/**
 * Assembling a movie from its downloaded segments. Segment `i` of movie
 * `name` is saved as `movies_folder_miyuki/<name>/video<i>.jpeg`; a segment
 * whose download failed is simply missing. Two assemblers scan the indices
 * `0..video_offset_max` in order and skip the missing ones: one concatenates
 * the segment bytes into `<name>.mp4`, the other writes an ffmpeg concat
 * list with one `file '<path>'` line per segment.
 *
 * The file system is a map from path to file contents; a path outside the
 * map does not exist.
 */
module Assembly {
  import opened Text

  type Bytes = seq<bv8>

  type Store = map<string, Bytes>

  /** The folder every movie is saved under. */
  const Root: string := "movies_folder_miyuki"

  /** The concat list handed to ffmpeg, in the working directory. */
  const InputFile: string := "ffmpeg_input_miyuki.txt"

  /** Where segment `i` of movie `name` is saved. */
  function SegmentPath(name: string, i: nat): (r: string)
    ensures Root + "/" + name + "/" <= r
    ensures |r| >= 5 && r[|r| - 5..] == ".jpeg"
  {
    Root + "/" + name + "/video" + NatToString(i) + ".jpeg"
  }

  /** Where segment `i` is downloaded from, for a movie's uuid and resolution. */
  function SegmentUrl(uuid: string, resolution: string, i: nat): (r: string)
    ensures "https://surrit.com/" + uuid + "/" + resolution + "/" <= r
    ensures |r| >= 5 && r[|r| - 5..] == ".jpeg"
  {
    "https://surrit.com/" + uuid + "/" + resolution + "/" + "video" + NatToString(i) + ".jpeg"
  }

  /** Where the concatenated movie is written. */
  function Mp4Path(name: string): (r: string)
    ensures Root + "/" + name <= r
    ensures |r| >= 4 && r[|r| - 4..] == ".mp4"
  {
    Root + "/" + name + ".mp4"
  }

  /** Text of the form `prefix + x + suffix` determines `x`. */
  lemma MiddleDetermined(prefix: string, x: string, y: string, suffix: string)
    requires prefix + x + suffix == prefix + y + suffix
    ensures x == y
  {
    var s := prefix + x + suffix;
    assert |x| == |y|;
    assert s[|prefix|..|prefix| + |x|] == x;
    assert (prefix + y + suffix)[|prefix|..|prefix| + |y|] == y;
  }

  /** Distinct segments of a movie are saved under distinct paths. */
  lemma SegmentPathInjective(name: string, i: nat, j: nat)
    requires SegmentPath(name, i) == SegmentPath(name, j)
    ensures i == j
  {
    MiddleDetermined(Root + "/" + name + "/video", NatToString(i), NatToString(j), ".jpeg");
    NatToStringInjective(i, j);
  }

  /** Distinct segments are fetched from distinct URLs. */
  lemma SegmentUrlInjective(uuid: string, resolution: string, i: nat, j: nat)
    requires SegmentUrl(uuid, resolution, i) == SegmentUrl(uuid, resolution, j)
    ensures i == j
  {
    MiddleDetermined("https://surrit.com/" + uuid + "/" + resolution + "/" + "video", NatToString(i), NatToString(j), ".jpeg");
    NatToStringInjective(i, j);
  }

  /** Neither output file is ever a segment file, so writing one cannot clobber a segment. */
  lemma OutputsAreNotSegments(name: string, other: string, i: nat)
    ensures Mp4Path(name) != SegmentPath(other, i)
    ensures InputFile != SegmentPath(other, i)
  {
    var m := Mp4Path(name);
    var p := SegmentPath(other, i);
    assert m[|m| - 1] == '4';
    assert p[|p| - 1] == 'g';
    assert InputFile[0] == 'f';
    assert p[0] == 'm';
  }

  // ---------------------------------------------------------------------------
  // Which segments are there
  // ---------------------------------------------------------------------------

  predicate Present(files: Store, name: string, i: nat)
  {
    SegmentPath(name, i) in files
  }

  /** The indices below `m` whose segment file exists, in increasing order. */
  function PresentIndices(files: Store, name: string, m: nat): (r: seq<nat>)
    ensures |r| <= m
    ensures forall k :: 0 <= k < |r| ==> r[k] < m && Present(files, name, r[k])
  {
    if m == 0 then []
    else
      var init := PresentIndices(files, name, m - 1);
      if Present(files, name, m - 1) then init + [m - 1] else init
  }

  predicate Ascending(r: seq<nat>)
  {
    forall a, b :: 0 <= a < b < |r| ==> r[a] < r[b]
  }

  /** The scan keeps the present indices in increasing order, so each at most once. */
  lemma {:induction false} PresentIndicesAscending(files: Store, name: string, m: nat)
    ensures Ascending(PresentIndices(files, name, m))
  {
    if m > 0 {
      PresentIndicesAscending(files, name, m - 1);
      var init := PresentIndices(files, name, m - 1);
      var r := PresentIndices(files, name, m);
      forall a, b | 0 <= a < b < |r| ensures r[a] < r[b] {
        assert r[a] == init[a] && init[a] < m - 1;
        if b < |init| {
          assert r[b] == init[b] && init[a] < init[b];
        }
      }
    }
  }

  /** The scan keeps every present index below `m`. */
  lemma {:induction false} PresentIndicesComplete(files: Store, name: string, m: nat)
    ensures forall i :: 0 <= i < m && Present(files, name, i) ==> i in PresentIndices(files, name, m)
  {
    if m > 0 {
      PresentIndicesComplete(files, name, m - 1);
      var init := PresentIndices(files, name, m - 1);
      assert forall i :: i in init ==> i in PresentIndices(files, name, m);
    }
  }

  /** The contents of the given segments, one after the other. */
  function Joined(files: Store, name: string, indices: seq<nat>): Bytes
    requires forall k :: 0 <= k < |indices| ==> Present(files, name, indices[k])
  {
    if indices == [] then []
    else
      assert Present(files, name, indices[0]);
      assert forall k :: 0 <= k < |indices| - 1 ==> indices[1..][k] == indices[k + 1];
      files[SegmentPath(name, indices[0])] + Joined(files, name, indices[1..])
  }

  lemma {:induction false} JoinedSnoc(files: Store, name: string, indices: seq<nat>, i: nat)
    requires forall k :: 0 <= k < |indices| ==> Present(files, name, indices[k])
    requires Present(files, name, i)
    ensures Joined(files, name, indices + [i]) == Joined(files, name, indices) + files[SegmentPath(name, i)]
  {
    if indices == [] {
      assert indices + [i] == [i];
    } else {
      assert (indices + [i])[1..] == indices[1..] + [i];
      JoinedSnoc(files, name, indices[1..], i);
    }
  }

  /** The concat-list line naming one segment. */
  function ListLine(name: string, i: nat): string
  {
    "file '" + SegmentPath(name, i) + "'"
  }

  /** The concat-list lines for the given segments, in order. */
  function ListLines(name: string, indices: seq<nat>): (r: seq<string>)
    ensures |r| == |indices|
    ensures forall k :: 0 <= k < |r| ==> r[k] == ListLine(name, indices[k])
  {
    if indices == [] then [] else [ListLine(name, indices[0])] + ListLines(name, indices[1..])
  }

  lemma ListLinesSnoc(name: string, indices: seq<nat>, i: nat)
    ensures ListLines(name, indices + [i]) == ListLines(name, indices) + [ListLine(name, i)]
  {
  }

  /** Scanning index `i` appends its segment's contents when it is present. */
  lemma JoinedStep(files: Store, name: string, i: nat)
    ensures Joined(files, name, PresentIndices(files, name, i + 1))
         == Joined(files, name, PresentIndices(files, name, i)) + (if Present(files, name, i) then files[SegmentPath(name, i)] else [])
  {
    if Present(files, name, i) {
      JoinedSnoc(files, name, PresentIndices(files, name, i), i);
    }
  }

  /** Scanning index `i` appends its list line when the segment is present. */
  lemma ListStep(files: Store, name: string, i: nat)
    ensures Terminated(ListLines(name, PresentIndices(files, name, i + 1)))
         == Terminated(ListLines(name, PresentIndices(files, name, i))) + (if Present(files, name, i) then ListLine(name, i) + "\n" else "")
  {
    var idx := PresentIndices(files, name, i);
    if Present(files, name, i) {
      ListLinesSnoc(name, idx, i);
      TerminatedSnoc(ListLines(name, idx), ListLine(name, i));
    }
  }

  // ---------------------------------------------------------------------------
  // The two assemblers
  // ---------------------------------------------------------------------------

  /**
   * `video_write_jpegs_to_mp4`: open `<name>.mp4` for writing, then for each
   * index from 0 to `video_offset_max` append the segment file if it exists
   * and count it. The result is the store with the movie file written: the
   * present segments joined in index order, and their number.
   */
  method WriteSegmentsToMp4(files: Store, name: string, offsetMax: nat) returns (written: Store, savedCount: nat)
    ensures written == files[Mp4Path(name) := Joined(files, name, PresentIndices(files, name, offsetMax + 1))]
    ensures savedCount == |PresentIndices(files, name, offsetMax + 1)|
  {
    var output: Bytes := [];
    savedCount := 0;
    var i := 0;
    while i < offsetMax + 1
      invariant 0 <= i <= offsetMax + 1
      invariant output == Joined(files, name, PresentIndices(files, name, i))
      invariant savedCount == |PresentIndices(files, name, i)|
    {
      var filePath := SegmentPath(name, i);
      JoinedStep(files, name, i);
      if filePath in files {
        output := output + files[filePath];
        savedCount := savedCount + 1;
      }
      i := i + 1;
    }
    written := files[Mp4Path(name) := output];
  }

  /** The concat list built by scanning the indices below `m`, one line per present segment. */
  function ScannedList(files: Store, name: string, m: nat): string
  {
    if m == 0 then ""
    else ScannedList(files, name, m - 1) + (if Present(files, name, m - 1) then ListLine(name, m - 1) + "\n" else "")
  }

  /** The scan writes the list lines of the present segments, each terminated by a line break. */
  lemma {:induction false} ScannedListTerminated(files: Store, name: string, m: nat)
    ensures ScannedList(files, name, m) == Terminated(ListLines(name, PresentIndices(files, name, m)))
  {
    if m > 0 {
      ScannedListTerminated(files, name, m - 1);
      ListStep(files, name, m - 1);
    }
  }

  /**
   * `generate_input_txt`: for each index from 0 to `video_offset_max` whose
   * segment file exists, count it and write the line `file '<path>'` to the
   * concat list `InputFile`. The result is the text of the list, and the count.
   */
  method GenerateInputTxt(files: Store, name: string, offsetMax: nat) returns (listText: string, findCount: nat)
    ensures listText == Terminated(ListLines(name, PresentIndices(files, name, offsetMax + 1)))
    ensures findCount == |PresentIndices(files, name, offsetMax + 1)|
  {
    var text := "";
    findCount := 0;
    var i := 0;
    while i < offsetMax + 1
      invariant 0 <= i <= offsetMax + 1
      invariant text == ScannedList(files, name, i)
      invariant findCount == |PresentIndices(files, name, i)|
    {
      var filePath := SegmentPath(name, i);
      if filePath in files {
        findCount := findCount + 1;
        text := text + (ListLine(name, i) + "\n");
      }
      i := i + 1;
    }
    listText := text;
    ScannedListTerminated(files, name, offsetMax + 1);
  }

  // ---------------------------------------------------------------------------
  // What the assemblers promise
  // ---------------------------------------------------------------------------

  /** Both assemblers report the same count, at most the number of indices scanned. */
  lemma CountsAgree(files: Store, name: string, offsetMax: nat)
    ensures |PresentIndices(files, name, offsetMax + 1)| <= offsetMax + 1
    ensures |ListLines(name, PresentIndices(files, name, offsetMax + 1))| == |PresentIndices(files, name, offsetMax + 1)|
  {
  }

  /** A decimal numeral has no line break. */
  lemma NumeralSingle(i: nat)
    ensures IsSingleLine(NatToString(i))
  {
    var digits := NatToString(i);
    forall k | 0 <= k < |digits| ensures !IsLineBreak(digits[k]) {
      assert IsDigit(digits[k]);
    }
  }

  /** A segment path is one line when the movie name is. */
  lemma SegmentPathSingle(name: string, i: nat)
    requires IsSingleLine(name)
    ensures IsSingleLine(SegmentPath(name, i))
  {
    NumeralSingle(i);
    var folder := Root + "/" + name;
    SingleLineConcat(Root + "/", name);
    SingleLineConcat(folder, "/video");
    SingleLineConcat(folder + "/video", NatToString(i));
    SingleLineConcat(folder + "/video" + NatToString(i), ".jpeg");
  }

  /** A list line is one line when the movie name is. */
  lemma ListLineSingle(name: string, i: nat)
    requires IsSingleLine(name)
    ensures IsSingleLine(ListLine(name, i))
  {
    SegmentPathSingle(name, i);
    SingleLineConcat("file '", SegmentPath(name, i));
    SingleLineConcat("file '" + SegmentPath(name, i), "'");
  }

  lemma SingleLineConcat(a: string, b: string)
    requires IsSingleLine(a) && IsSingleLine(b)
    ensures IsSingleLine(a + b)
  {
    forall k | 0 <= k < |a + b| ensures !IsLineBreak((a + b)[k]) {
      if k < |a| {
        assert (a + b)[k] == a[k];
      } else {
        assert (a + b)[k] == b[k - |a|];
      }
    }
  }

  /**
   * Read back with `splitlines()`, the concat list has exactly one line per
   * present segment, in index order, each naming that segment's path (for a
   * movie name without line breaks).
   */
  lemma ListReadsBack(files: Store, name: string, offsetMax: nat)
    requires IsSingleLine(name)
    ensures var idx := PresentIndices(files, name, offsetMax + 1);
      var lines := SplitLines(Terminated(ListLines(name, idx)));
      && |lines| == |idx|
      && forall k :: 0 <= k < |lines| ==> lines[k] == "file '" + SegmentPath(name, idx[k]) + "'"
  {
    var idx := PresentIndices(files, name, offsetMax + 1);
    var lines := ListLines(name, idx);
    forall k | 0 <= k < |lines| ensures IsSingleLine(lines[k]) {
      ListLineSingle(name, idx[k]);
    }
    SplitLinesTerminated(lines);
  }

  /** The contrapositive of `SegmentPathInjective`. */
  lemma SegmentPathsDistinct(name: string, i: nat, j: nat)
    requires i != j
    ensures SegmentPath(name, i) != SegmentPath(name, j)
  {
    if SegmentPath(name, i) == SegmentPath(name, j) {
      SegmentPathInjective(name, i, j);
    }
  }

  /** Scanning index `m` keeps it exactly when its segment is present. */
  lemma PresentStep(files: Store, name: string, m: nat)
    ensures PresentIndices(files, name, m + 1)
         == PresentIndices(files, name, m) + (if Present(files, name, m) then [m] else [])
  {
  }

  /** Of four consecutive indices from `m`, with the third segment missing, the scan keeps the other three. */
  lemma GapIndices(files: Store, name: string, m: nat)
    requires Present(files, name, m) && Present(files, name, m + 1) && Present(files, name, m + 3)
    requires !Present(files, name, m + 2)
    ensures PresentIndices(files, name, m + 4) == PresentIndices(files, name, m) + [m, m + 1, m + 3]
  {
    var before := PresentIndices(files, name, m);
    PresentStep(files, name, m);
    PresentStep(files, name, m + 1);
    PresentStep(files, name, m + 2);
    PresentStep(files, name, m + 3);
    assert before + [m] + [m + 1] + [] + [m + 3] == before + [m, m + 1, m + 3];
  }

  /** The movie made of three present segments is their contents in order. */
  lemma GapJoined(files: Store, name: string, i: nat, j: nat, k: nat)
    requires Present(files, name, i) && Present(files, name, j) && Present(files, name, k)
    ensures Joined(files, name, [i, j, k])
         == files[SegmentPath(name, i)] + files[SegmentPath(name, j)] + files[SegmentPath(name, k)]
  {
    assert [i, j, k][1..] == [j, k];
    assert [j, k][1..] == [k];
    assert Joined(files, name, [k]) == files[SegmentPath(name, k)];
  }

  /** No segment below `m` is present: the scan up to `m` keeps nothing. */
  lemma {:induction false} NonePresentBelow(files: Store, name: string, m: nat)
    requires forall i :: 0 <= i < m ==> !Present(files, name, i)
    ensures PresentIndices(files, name, m) == []
  {
    if m > 0 {
      NonePresentBelow(files, name, m - 1);
      assert !Present(files, name, m - 1);
    }
  }

  /** The store holding exactly segments `m`, `m + 1` and `m + 3`. */
  lemma SavedThree(files: Store, name: string, m: nat, a: Bytes, b: Bytes, d: Bytes)
    requires files == map[SegmentPath(name, m) := a, SegmentPath(name, m + 1) := b, SegmentPath(name, m + 3) := d]
    ensures Present(files, name, m) && Present(files, name, m + 1) && Present(files, name, m + 3)
    ensures !Present(files, name, m + 2)
    ensures files[SegmentPath(name, m)] == a && files[SegmentPath(name, m + 1)] == b && files[SegmentPath(name, m + 3)] == d
  {
    SegmentPathsDistinct(name, m, m + 1);
    SegmentPathsDistinct(name, m, m + 3);
    SegmentPathsDistinct(name, m + 1, m + 3);
    SegmentPathsDistinct(name, m + 2, m);
    SegmentPathsDistinct(name, m + 2, m + 1);
    SegmentPathsDistinct(name, m + 2, m + 3);
  }

  /** In that store no segment below `m` is present. */
  lemma NothingSavedBelow(files: Store, name: string, m: nat, a: Bytes, b: Bytes, d: Bytes)
    requires files == map[SegmentPath(name, m) := a, SegmentPath(name, m + 1) := b, SegmentPath(name, m + 3) := d]
    ensures forall i :: 0 <= i < m ==> !Present(files, name, i)
  {
    forall i | 0 <= i < m ensures !Present(files, name, i) {
      SegmentPathsDistinct(name, i, m);
      SegmentPathsDistinct(name, i, m + 1);
      SegmentPathsDistinct(name, i, m + 3);
    }
  }

  /**
   * A download that saved segments `m`, `m + 1` and `m + 3` and lost `m + 2`:
   * the scan up to `m + 3` counts three segments and the movie is their
   * bytes in index order.
   */
  lemma GapExample(name: string, m: nat, a: Bytes, b: Bytes, d: Bytes)
    ensures var files := map[SegmentPath(name, m) := a, SegmentPath(name, m + 1) := b, SegmentPath(name, m + 3) := d];
      && PresentIndices(files, name, m + 4) == [m, m + 1, m + 3]
      && Joined(files, name, [m, m + 1, m + 3]) == a + b + d
  {
    var files := map[SegmentPath(name, m) := a, SegmentPath(name, m + 1) := b, SegmentPath(name, m + 3) := d];
    SavedThree(files, name, m, a, b, d);
    NothingSavedBelow(files, name, m, a, b, d);
    NonePresentBelow(files, name, m);
    GapIndices(files, name, m);
    GapJoined(files, name, m, m + 1, m + 3);
  }
}

=== FILE: counter.dfy ===
/**
 * `ThreadSafeCounter`: the shared count of downloaded segments behind the
 * progress bar. Its lock only serialises the three operations, so the model
 * gives their sequential meaning.
 */
module Counter {

  class ThreadSafeCounter {
    var count: int

    /** A new counter starts at 0. */
    constructor ()
      ensures count == 0
    {
      count := 0;
    }

    /** `incrementAndGet`: add one and return the new count. */
    method IncrementAndGet() returns (value: int)
      modifies this
      ensures count == old(count) + 1
      ensures value == count
    {
      count := count + 1;
      value := count;
    }

    /** `reset`: back to 0. */
    method Reset()
      modifies this
      ensures count == 0
    {
      count := 0;
    }

    /** `get_count`: the count, unchanged. */
    method GetCount() returns (value: int)
      ensures value == count
    {
      value := count;
    }
  }

  /**
   * A download round as the counter sees it: a reset before the round, then
   * one `incrementAndGet` per saved segment (the value the progress bar
   * shows). The values shown are 1, 2, ..., k and the count ends at k.
   */
  method CountRound(c: ThreadSafeCounter, k: nat) returns (shown: seq<int>)
    modifies c
    ensures shown == seq(k, i => i + 1)
    ensures c.count == k
  {
    c.Reset();
    shown := [];
    var i := 0;
    while i < k
      invariant 0 <= i <= k
      invariant c.count == i
      invariant shown == seq(i, j => j + 1)
    {
      var v := c.IncrementAndGet();
      shown := shown + [v];
      i := i + 1;
    }
  }
}

=== FILE: encoders.dfy ===
/**
 * Encoder discovery and selection: the parser that turns the transcoder's
 * encoder listing into candidate names, and the flavour-priority reordering
 * that picks among the candidates that survived benchmarking.
 */
module Encoders {
  import opened Wrappers
  import opened Text

  // ---------------------------------------------------------------------------
  // The encoder listing parser (ffmpeg_get_encoders)
  // ---------------------------------------------------------------------------

  /** The rule that separates the listing's legend from its encoder lines. */
  const Separator: string := "------"

  /** Why parsing the listing raised: no separator, or a tagged line with no name token. */
  datatype ListingError = NoEncoderBlock | MissingName(line: string)

  /** Python's `s.upper()` on the ASCII letters the stream-type tags use. */
  function UpperAscii(s: string): (r: string)
    ensures |r| == |s|
    ensures forall i :: 0 <= i < |s| ==> r[i] == if 'a' <= s[i] <= 'z' then (s[i] as int - 32) as char else s[i]
  {
    if s == [] then []
    else
      var c := if 'a' <= s[0] <= 'z' then (s[0] as int - 32) as char else s[0];
      [c] + UpperAscii(s[1..])
  }

  /**
   * `listing.split("------")[1]`: the text after the first separator, up to
   * the next one or to the end. A listing without a separator makes the
   * index raise.
   */
  function EncoderBlock(listing: string): (r: Option<string>)
    ensures r.None? <==> !Contains(listing, Separator)
    ensures r.Some? ==> !Contains(r.value, Separator)
  {
    FindContains(listing, Separator);
    match Find(listing, Separator)
    case None => None
    case Some(i) =>
      var rest := listing[i + |Separator|..];
      FindContains(rest, Separator);
      match Find(rest, Separator)
      case None => Some(rest)
      case Some(j) =>
        NoEarlierOccurrence(rest, j);
        Some(rest[..j])
  }

  lemma NoEarlierOccurrence(s: string, j: nat)
    requires j <= |s|
    requires forall k :: 0 <= k < j ==> !OccursAt(s, Separator, k)
    ensures !Contains(s[..j], Separator)
  {
    var t := s[..j];
    forall k: nat | k <= |t| ensures !OccursAt(t, Separator, k) {
      if k + |Separator| <= |t| {
        assert t[k..k + |Separator|] == s[k..k + |Separator|];
        assert !OccursAt(s, Separator, k);
      }
    }
  }

  /**
   * In a legend without the separator (and not ending in a dash) followed by
   * the separator, the first separator is the one after the legend.
   */
  lemma FirstRuleAfterLegend(legend: string, rest: string)
    requires !Contains(legend, Separator)
    requires legend == [] || legend[|legend| - 1] != '-'
    ensures Find(legend + Separator + rest, Separator) == Some(|legend|)
    ensures (legend + Separator + rest)[|legend| + |Separator|..] == rest
  {
    var s := legend + Separator + rest;
    assert OccursAt(s, Separator, |legend|) by {
      assert s[|legend|..|legend| + |Separator|] == Separator;
    }
    assert forall m :: 0 <= m < |Separator| ==> Separator[m] == '-';
    forall k | 0 <= k < |legend| ensures !OccursAt(s, Separator, k) {
      if k + |Separator| <= |legend| {
        assert legend[k..k + |Separator|] == s[k..k + |Separator|];
        assert !OccursAt(legend, Separator, k);
      } else {
        assert s[k..k + |Separator|][|legend| - 1 - k] == legend[|legend| - 1];
      }
    }
  }

  /**
   * A listing made of a legend without the separator (and not ending in a
   * dash), the separator, then a body without the separator: its encoder
   * block is exactly that body.
   */
  lemma EncoderBlockOfListing(legend: string, body: string)
    requires !Contains(legend, Separator)
    requires legend == [] || legend[|legend| - 1] != '-'
    requires !Contains(body, Separator)
    ensures EncoderBlock(legend + Separator + body) == Some(body)
  {
    FirstRuleAfterLegend(legend, body);
    FindContains(body, Separator);
  }

  /**
   * When a second separator follows, the block is the text between the first
   * two: `split("------")[1]` of `legend + rule + body + rule + tail` is `body`.
   */
  lemma EncoderBlockBetweenRules(legend: string, body: string, tail: string)
    requires !Contains(legend, Separator)
    requires legend == [] || legend[|legend| - 1] != '-'
    requires !Contains(body, Separator)
    requires body == [] || body[|body| - 1] != '-'
    ensures EncoderBlock(legend + Separator + body + Separator + tail) == Some(body)
  {
    var rest := body + Separator + tail;
    assert legend + Separator + body + Separator + tail == legend + Separator + rest;
    FirstRuleAfterLegend(legend, rest);
    FirstRuleAfterLegend(body, tail);
    assert rest[..|body|] == body;
  }

  /** The listing's lines after `strip()`, with the empty ones dropped. */
  function CleanLines(raw: seq<string>): (lines: seq<string>)
    ensures forall k :: 0 <= k < |lines| ==> lines[k] != []
    ensures |lines| <= |raw|
  {
    DropEmpty(seq(|raw|, k requires 0 <= k < |raw| => Strip(raw[k])))
  }

  /** The strings of `xs` that are not empty, in order. */
  function DropEmpty(xs: seq<string>): (r: seq<string>)
    ensures forall k :: 0 <= k < |r| ==> r[k] != []
    ensures |r| <= |xs|
    ensures forall t :: t in r <==> t in xs && t != []
  {
    if xs == [] then []
    else
      var rest := DropEmpty(xs[1..]);
      assert forall t :: t in xs <==> t == xs[0] || t in xs[1..];
      if xs[0] == [] then rest else [xs[0]] + rest
  }

  /** `line` starts with the stream-type tag and its second space-separated token is `name`, not empty. */
  predicate Yields(line: string, tag: string, name: string)
  {
    line != [] && [line[0]] == tag && |Split(line, ' ')| >= 2 && Split(line, ' ')[1] == name && name != []
  }

  /** `line` starts with the tag but has no second token, so `split(' ')[1]` raises. */
  predicate LacksName(line: string, tag: string)
  {
    line != [] && [line[0]] == tag && |Split(line, ' ')| < 2
  }

  /**
   * The name-extraction stage: for each line in order, a tagged line gives
   * its second token (empty tokens are dropped), an untagged line is
   * skipped, and a tagged line with no second token raises.
   */
  function PickNames(lines: seq<string>, tag: string): (r: Result<seq<string>, ListingError>)
    ensures r.Err? <==> exists k :: 0 <= k < |lines| && LacksName(lines[k], tag)
    ensures r.Ok? ==> forall name :: name in r.value <==> exists k :: 0 <= k < |lines| && Yields(lines[k], tag, name)
  {
    if lines == [] then Ok([])
    else
      var line := lines[0];
      assert forall k :: 0 < k < |lines| ==> lines[k] == lines[1..][k - 1];
      if LacksName(line, tag) then Err(MissingName(line))
      else
        match PickNames(lines[1..], tag)
        case Err(e) => Err(e)
        case Ok(names) =>
          if line != [] && [line[0]] == tag && Split(line, ' ')[1] != [] then Ok([Split(line, ' ')[1]] + names)
          else Ok(names)
  }

  /** `name` contains one of the flavour strings (Python's `any(f in name for f in flavors)`). */
  predicate MatchesFlavor(name: string, flavors: seq<string>)
  {
    exists f :: f in flavors && Contains(name, f)
  }

  /** The optional flavour filter: keep the names that contain some flavour, in order. */
  function FilterFlavors(names: seq<string>, flavors: seq<string>): (r: seq<string>)
    ensures forall name :: name in r <==> name in names && MatchesFlavor(name, flavors)
    ensures |r| <= |names|
  {
    if names == [] then []
    else
      var rest := FilterFlavors(names[1..], flavors);
      assert forall x :: x in names <==> x == names[0] || x in names[1..];
      if MatchesFlavor(names[0], flavors) then [names[0]] + rest else rest
  }

  /**
   * `ffmpeg_get_encoders(etype, flavors)` applied to the listing text: the
   * block between the separators, split into stripped non-empty lines, the
   * names of the lines tagged `etype.upper()`, then (when flavours are given)
   * only the names containing a flavour.
   */
  function ParseEncoders(listing: string, etype: string, flavors: seq<string>): (r: Result<seq<string>, ListingError>)
    ensures r == Err(NoEncoderBlock) <==> !Contains(listing, Separator)
    ensures r.Ok? ==> forall name :: name in r.value ==> name != [] && ' ' !in name
    ensures r.Ok? && |flavors| > 0 ==> forall name :: name in r.value ==> MatchesFlavor(name, flavors)
  {
    match EncoderBlock(listing)
    case None => Err(NoEncoderBlock)
    case Some(block) =>
      var tag := UpperAscii(etype);
      var lines := CleanLines(Split(block, '\n'));
      match PickNames(lines, tag)
      case Err(e) =>
        assert e != NoEncoderBlock by {
          if PickNames(lines, tag) == Err(NoEncoderBlock) {
            assert PickNames(lines, tag).Err?;
            PickNamesErrors(lines, tag);
          }
        }
        Err(e)
      case Ok(names) =>
        forall name | name in names ensures ' ' !in name {
          var k :| 0 <= k < |lines| && Yields(lines[k], tag, name);
        }
        Ok(if |flavors| > 0 then FilterFlavors(names, flavors) else names)
  }

  lemma {:induction false} PickNamesErrors(lines: seq<string>, tag: string)
    ensures PickNames(lines, tag).Err? ==> PickNames(lines, tag).error.MissingName?
  {
    if lines != [] && !LacksName(lines[0], tag) {
      PickNamesErrors(lines[1..], tag);
    }
  }

  /**
   * The parser yields exactly the non-empty second tokens of the block's
   * lines tagged `etype.upper()` (after stripping), narrowed to the names
   * containing a flavour when flavours are given.
   */
  lemma ParseEncodersExact(listing: string, etype: string, flavors: seq<string>, name: string)
    requires ParseEncoders(listing, etype, flavors).Ok?
    ensures EncoderBlock(listing).Some?
    ensures name in ParseEncoders(listing, etype, flavors).value <==>
      && (exists k :: 0 <= k < |CleanLines(Split(EncoderBlock(listing).value, '\n'))|
            && Yields(CleanLines(Split(EncoderBlock(listing).value, '\n'))[k], UpperAscii(etype), name))
      && (|flavors| > 0 ==> MatchesFlavor(name, flavors))
  {
  }

  // ---------------------------------------------------------------------------
  // Encoder selection (encoder_selection)
  // ---------------------------------------------------------------------------

  /** Python's `list.remove(x)`: drop the first element equal to `x`. */
  function RemoveFirst(s: seq<string>, x: string): (r: seq<string>)
    requires x in s
    ensures |r| == |s| - 1
    ensures forall y :: y in r ==> y in s
    ensures forall y :: y in s && y != x ==> y in r
  {
    if s[0] == x then s[1..]
    else [s[0]] + RemoveFirst(s[1..], x)
  }

  /** `r` is `s` without its element at `i`, which is the first `x` in `s`. */
  predicate RemovedAt(s: seq<string>, x: string, i: nat, r: seq<string>)
  {
    i < |s| && s[i] == x && x !in s[..i] && r == s[..i] + s[i + 1..]
  }

  /** `list.remove(x)` takes out the first `x` and keeps the other elements in order. */
  lemma {:induction false} RemoveFirstAt(s: seq<string>, x: string)
    requires x in s
    ensures exists i :: RemovedAt(s, x, i, RemoveFirst(s, x))
  {
    if s[0] == x {
      assert RemovedAt(s, x, 0, RemoveFirst(s, x));
    } else {
      var t := s[1..];
      assert x in t;
      RemoveFirstAt(t, x);
      var j: nat :| RemovedAt(t, x, j, RemoveFirst(t, x));
      assert s[..j + 1] == [s[0]] + t[..j];
      assert s[j + 2..] == t[j + 1..];
      assert RemovedAt(s, x, j + 1, RemoveFirst(s, x));
    }
  }

  /** Python's `list.insert(i, x)` for `i >= 0`: an index past the end appends. */
  function Insert(s: seq<string>, i: nat, x: string): (r: seq<string>)
    ensures |r| == |s| + 1
    ensures r[if i < |s| then i else |s|] == x
    ensures forall y :: y in r <==> y in s || y == x
    ensures var j := if i < |s| then i else |s|; r == s[..j] + [x] + s[j..]
  {
    if i < |s| then
      assert s == s[..i] + s[i..];
      s[..i] + [x] + s[i..]
    else s + [x]
  }

  /**
   * `r` is `list` with its element at `i` taken out and put back at `index`,
   * or at the end when `index` is past it.
   */
  predicate MovedFrom(list: seq<string>, i: nat, index: nat, r: seq<string>)
  {
    i < |list| &&
    var rest := list[..i] + list[i + 1..];
    var j := if index < |rest| then index else |rest|;
    r == rest[..j] + [list[i]] + rest[j..]
  }

  /** One move of the flavour pass: `list.remove(e)` then `list.insert(index, e)`. */
  function MoveTo(list: seq<string>, e: string, index: nat): (r: seq<string>)
    requires e in list
    ensures forall y :: y in r <==> y in list
  {
    Insert(RemoveFirst(list, e), index, e)
  }

  /** A move takes out the first `e` and puts it back at `index`, the rest keeping their order. */
  lemma MoveToAt(list: seq<string>, e: string, index: nat)
    requires e in list
    ensures exists i :: RemovedAt(list, e, i, RemoveFirst(list, e)) && MovedFrom(list, i, index, MoveTo(list, e, index))
  {
    RemoveFirstAt(list, e);
  }

  /**
   * The inner loop of one flavour's pass: for each encoder still `pending` in
   * the snapshot, in order, move it to `index` if it contains the flavour.
   */
  function MoveMatches(list: seq<string>, pending: seq<string>, flavor: string, index: nat): (r: seq<string>)
    requires forall x :: x in pending ==> x in list
    ensures forall y :: y in r <==> y in list
    decreases |pending|
  {
    if pending == [] then list
    else
      var e := pending[0];
      var next := if Contains(e, flavor) then MoveTo(list, e, index) else list;
      MoveMatches(next, pending[1..], flavor, index)
  }

  lemma MoveMatchesStep(list: seq<string>, pending: seq<string>, flavor: string, index: nat)
    requires pending != [] && forall x :: x in pending ==> x in list
    ensures pending[0] in list
    ensures var next := if Contains(pending[0], flavor) then Insert(RemoveFirst(list, pending[0]), index, pending[0]) else list;
      && (forall x :: x in pending[1..] ==> x in next)
      && MoveMatches(list, pending, flavor, index) == MoveMatches(next, pending[1..], flavor, index)
  {
    assert pending[0] in pending;
  }

  /** The passes for flavours `k..` in priority order, each over a snapshot of the list as it stands. */
  function SortByFlavors(list: seq<string>, flavors: seq<string>, k: nat): (r: seq<string>)
    requires k <= |flavors|
    ensures forall y :: y in r <==> y in list
    decreases |flavors| - k
  {
    if k == |flavors| then list
    else SortByFlavors(MoveMatches(list, list, flavors[k], k), flavors, k + 1)
  }

  /**
   * What `encoder_selection(encoders, flavors)` returns: the reordered list,
   * or `["copy"]` when it is empty. It is `["copy"]` for an empty input and a
   * rearrangement of the input otherwise.
   */
  function EncoderSelection(encoders: seq<string>, flavors: seq<string>): (r: seq<string>)
    ensures r != []
    ensures encoders == [] ==> r == ["copy"]
    ensures encoders != [] ==> multiset(r) == multiset(encoders)
  {
    var sorted := SortByFlavors(encoders, flavors, 0);
    SortByFlavorsPermutes(encoders, flavors, 0);
    if |sorted| > 0 then sorted else ["copy"]
  }

  // Each step of the selection rearranges the list without losing or
  // duplicating a name.

  lemma {:induction false} RemoveFirstPermutes(s: seq<string>, x: string)
    requires x in s
    ensures multiset(RemoveFirst(s, x)) == multiset(s) - multiset{x}
  {
    assert s == [s[0]] + s[1..];
    if s[0] != x {
      RemoveFirstPermutes(s[1..], x);
    }
  }

  lemma InsertPermutes(s: seq<string>, i: nat, x: string)
    ensures multiset(Insert(s, i, x)) == multiset(s) + multiset{x}
  {
    if i < |s| {
      assert s == s[..i] + s[i..];
    }
  }

  lemma MoveToPermutes(list: seq<string>, e: string, index: nat)
    requires e in list
    ensures multiset(MoveTo(list, e, index)) == multiset(list)
  {
    RemoveFirstPermutes(list, e);
    InsertPermutes(RemoveFirst(list, e), index, e);
    assert e in multiset(list);
  }

  lemma {:induction false} MoveMatchesPermutes(list: seq<string>, pending: seq<string>, flavor: string, index: nat)
    requires forall x :: x in pending ==> x in list
    ensures multiset(MoveMatches(list, pending, flavor, index)) == multiset(list)
    decreases |pending|
  {
    if pending != [] {
      var e := pending[0];
      MoveMatchesStep(list, pending, flavor, index);
      if Contains(e, flavor) {
        MoveToPermutes(list, e, index);
        MoveMatchesPermutes(MoveTo(list, e, index), pending[1..], flavor, index);
      } else {
        MoveMatchesPermutes(list, pending[1..], flavor, index);
      }
    }
  }

  lemma {:induction false} SortByFlavorsPermutes(list: seq<string>, flavors: seq<string>, k: nat)
    requires k <= |flavors|
    ensures multiset(SortByFlavors(list, flavors, k)) == multiset(list)
    decreases |flavors| - k
  {
    if k < |flavors| {
      MoveMatchesPermutes(list, list, flavors[k], k);
      SortByFlavorsPermutes(MoveMatches(list, list, flavors[k], k), flavors, k + 1);
    }
  }

  /**
   * `encoder_selection` as the source runs it: for each flavour in priority
   * order, walk a copy of the list and move every encoder containing the
   * flavour to the flavour's index by a remove and an insert. The list the
   * source mutates is a fresh copy made by its callers, so only the returned
   * value is observable.
   */
  method SelectEncoders(encoders: seq<string>, flavors: seq<string>) returns (r: seq<string>)
    ensures r == EncoderSelection(encoders, flavors)
    ensures encoders == [] ==> r == ["copy"]
    ensures encoders != [] ==> multiset(r) == multiset(encoders)
  {
    var list := encoders;
    var index := 0;
    while index < |flavors|
      invariant 0 <= index <= |flavors|
      invariant SortByFlavors(list, flavors, index) == SortByFlavors(encoders, flavors, 0)
    {
      var flavor := flavors[index];
      var snapshot := list;
      var k := 0;
      while k < |snapshot|
        invariant 0 <= k <= |snapshot|
        invariant forall x :: x in snapshot[k..] ==> x in list
        invariant MoveMatches(list, snapshot[k..], flavor, index) == MoveMatches(snapshot, snapshot, flavor, index)
      {
        var encoder := snapshot[k];
        MoveMatchesStep(list, snapshot[k..], flavor, index);
        if Contains(encoder, flavor) {
          list := RemoveFirst(list, encoder);
          list := Insert(list, index, encoder);
        }
        k := k + 1;
      }
      index := index + 1;
    }
    r := if |list| > 0 then list else ["copy"];
  }

  // ---------------------------------------------------------------------------
  // What the reordering does
  // ---------------------------------------------------------------------------

  /** No encoder name occurs twice (the benchmark stage hands over the members of a set). */
  predicate Distinct(s: seq<string>)
  {
    forall i, j :: 0 <= i < j < |s| ==> s[i] != s[j]
  }

  /** The names of `s` containing `flavor`, in their order in `s`. */
  function Matching(s: seq<string>, flavor: string): (r: seq<string>)
    ensures forall x :: x in r ==> x in s && Contains(x, flavor)
  {
    if s == [] then []
    else
      var init := Matching(s[..|s| - 1], flavor);
      var last := s[|s| - 1];
      assert forall x :: x in s[..|s| - 1] ==> x in s;
      if Contains(last, flavor) then init + [last] else init
  }

  /** The names of `s` not containing `flavor`, in their order in `s`. */
  function NotMatching(s: seq<string>, flavor: string): (r: seq<string>)
    ensures forall x :: x in r ==> x in s && !Contains(x, flavor)
  {
    if s == [] then []
    else
      var init := NotMatching(s[..|s| - 1], flavor);
      var last := s[|s| - 1];
      assert forall x :: x in s[..|s| - 1] ==> x in s;
      if Contains(last, flavor) then init else init + [last]
  }

  lemma {:induction false} RemoveFirstPast(a: seq<string>, b: seq<string>, x: string)
    requires x !in a && x in b
    ensures RemoveFirst(a + b, x) == a + RemoveFirst(b, x)
  {
    if a != [] {
      assert (a + b)[0] == a[0];
      assert (a + b)[1..] == a[1..] + b;
      RemoveFirstPast(a[1..], b, x);
    } else {
      assert a + b == b;
    }
  }

  lemma MatchingSnoc(done: seq<string>, e: string, flavor: string)
    ensures Matching(done + [e], flavor) == Matching(done, flavor) + (if Contains(e, flavor) then [e] else [])
    ensures NotMatching(done + [e], flavor) == NotMatching(done, flavor) + (if Contains(e, flavor) then [] else [e])
  {
    assert (done + [e])[..|done|] == done;
  }

  lemma DistinctSplit(done: seq<string>, todo: seq<string>)
    requires Distinct(done + todo) && todo != []
    ensures todo[0] !in done
  {
    assert (done + todo)[|done|] == todo[0];
    forall i | 0 <= i < |done| ensures done[i] != todo[0] {
      assert (done + todo)[i] == done[i];
    }
  }

  /** Moving a name that sits right after `front` to index 0 puts it before `front`. */
  lemma MoveToFrontAfter(front: seq<string>, todo: seq<string>)
    requires todo != [] && todo[0] !in front
    ensures todo[0] in front + todo
    ensures Insert(RemoveFirst(front + todo, todo[0]), 0, todo[0]) == [todo[0]] + front + todo[1..]
  {
    var e := todo[0];
    var removed := RemoveFirst(front + todo, e);
    assert removed == front + todo[1..] by {
      assert RemoveFirst(todo, e) == todo[1..];
      RemoveFirstPast(front, todo, e);
    }
    assert Insert(removed, 0, e) == [e] + removed by {
      InsertAtZero(removed, e);
    }
    assert [e] + removed == [e] + front + todo[1..];
  }

  lemma InsertAtZero(s: seq<string>, e: string)
    ensures Insert(s, 0, e) == [e] + s
  {
    if 0 < |s| {
      assert s[..0] == [] && s[0..] == s;
    }
  }

  /**
   * Where the flavour-0 pass has put the names of `done` once it has walked
   * them: the matches, last-seen first, then the other names in order.
   */
  function Front(done: seq<string>, flavor: string): seq<string>
  {
    Reverse(Matching(done, flavor)) + NotMatching(done, flavor)
  }

  lemma FrontMembers(done: seq<string>, flavor: string)
    ensures forall x :: x in Front(done, flavor) ==> x in done
  {
  }

  lemma FrontSnocMatch(done: seq<string>, e: string, flavor: string)
    requires Contains(e, flavor)
    ensures Front(done + [e], flavor) == [e] + Front(done, flavor)
  {
    MatchingSnoc(done, e, flavor);
    ReverseSnoc(Matching(done, flavor), e);
  }

  lemma FrontSnocSkip(done: seq<string>, e: string, flavor: string)
    requires !Contains(e, flavor)
    ensures Front(done + [e], flavor) == Front(done, flavor) + [e]
  {
    MatchingSnoc(done, e, flavor);
  }

  /**
   * The pass for the flavour at index 0 over distinct names, from the point
   * where `done` has been walked and `todo` remains.
   */
  lemma {:induction false} FrontPass(done: seq<string>, todo: seq<string>, flavor: string)
    requires Distinct(done + todo)
    ensures forall x :: x in todo ==> x in Front(done, flavor) + todo
    ensures MoveMatches(Front(done, flavor) + todo, todo, flavor, 0) == Front(done + todo, flavor)
    decreases |todo|
  {
    if todo == [] {
      assert done + todo == done;
    } else {
      var done' := done + [todo[0]];
      assert done' + todo[1..] == done + todo;
      FrontStep(done, todo, flavor);
      FrontPass(done', todo[1..], flavor);
    }
  }

  /** One step of the flavour-0 pass over distinct names, in the terms of `FrontPass`. */
  lemma FrontStep(done: seq<string>, todo: seq<string>, flavor: string)
    requires Distinct(done + todo) && todo != []
    ensures forall x :: x in todo[1..] ==> x in Front(done + [todo[0]], flavor) + todo[1..]
    ensures MoveMatches(Front(done, flavor) + todo, todo, flavor, 0)
         == MoveMatches(Front(done + [todo[0]], flavor) + todo[1..], todo[1..], flavor, 0)
  {
    var list := Front(done, flavor) + todo;
    var e := todo[0];
    assert e !in Front(done, flavor) by {
      DistinctSplit(done, todo);
      FrontMembers(done, flavor);
    }
    NextIsFront(done, todo, flavor);
    MoveMatchesStep(list, todo, flavor, 0);
  }

  /** The list after handling the next name is the front for one more walked name. */
  lemma NextIsFront(done: seq<string>, todo: seq<string>, flavor: string)
    requires todo != [] && todo[0] !in Front(done, flavor)
    ensures todo[0] in Front(done, flavor) + todo
    ensures (if Contains(todo[0], flavor)
             then Insert(RemoveFirst(Front(done, flavor) + todo, todo[0]), 0, todo[0])
             else Front(done, flavor) + todo)
         == Front(done + [todo[0]], flavor) + todo[1..]
  {
    assert (Front(done, flavor) + todo)[|Front(done, flavor)|] == todo[0];
    if Contains(todo[0], flavor) {
      NextIsFrontMatch(done, todo, flavor);
    } else {
      NextIsFrontSkip(done, todo, flavor);
    }
  }

  lemma NextIsFrontMatch(done: seq<string>, todo: seq<string>, flavor: string)
    requires todo != [] && todo[0] !in Front(done, flavor) && Contains(todo[0], flavor)
    ensures Insert(RemoveFirst(Front(done, flavor) + todo, todo[0]), 0, todo[0])
         == Front(done + [todo[0]], flavor) + todo[1..]
  {
    MoveToFrontAfter(Front(done, flavor), todo);
    FrontSnocMatch(done, todo[0], flavor);
  }

  lemma NextIsFrontSkip(done: seq<string>, todo: seq<string>, flavor: string)
    requires todo != [] && !Contains(todo[0], flavor)
    ensures Front(done, flavor) + todo == Front(done + [todo[0]], flavor) + todo[1..]
  {
    var front := Front(done, flavor);
    var e := todo[0];
    FrontSnocSkip(done, e, flavor);
    assert todo == [e] + todo[1..];
    assert front + todo == front + [e] + todo[1..];
  }


  /**
   * With a single flavour and distinct names, the selection puts the matching
   * names first (in reverse of their input order, each having been moved to
   * the front in turn) and keeps the other names behind them in their input
   * order.
   */
  lemma SingleFlavorOrder(encoders: seq<string>, flavor: string)
    requires encoders != [] && Distinct(encoders)
    ensures EncoderSelection(encoders, [flavor]) == Reverse(Matching(encoders, flavor)) + NotMatching(encoders, flavor)
  {
    var moved := MoveMatches(encoders, encoders, flavor, 0);
    assert moved == Front(encoders, flavor) by {
      FrontPass([], encoders, flavor);
      assert Front([], flavor) == [];
      assert [] + encoders == encoders;
    }
    assert SortByFlavors(encoders, [flavor], 0) == moved by {
      assert SortByFlavors(moved, [flavor], 1) == moved;
    }
    assert encoders[0] in moved;
  }

  /** The flavour-0 pass leaves a name containing that flavour at the front once it has seen one. */
  lemma {:induction false} FirstPassFront(list: seq<string>, pending: seq<string>, flavor: string)
    requires forall x :: x in pending ==> x in list
    requires (list != [] && Contains(list[0], flavor)) || exists e :: e in pending && Contains(e, flavor)
    ensures var r := MoveMatches(list, pending, flavor, 0); r != [] && Contains(r[0], flavor)
    decreases |pending|
  {
    if pending == [] {
    } else {
      var e := pending[0];
      MoveMatchesStep(list, pending, flavor, 0);
      assert forall x :: x in pending ==> x == e || x in pending[1..];
      if Contains(e, flavor) {
        var next := Insert(RemoveFirst(list, e), 0, e);
        assert next[0] == e;
        FirstPassFront(next, pending[1..], flavor);
      } else {
        FirstPassFront(list, pending[1..], flavor);
      }
    }
  }

  /** A pass for a flavour at index 1 or later never displaces a front name that lacks the flavour. */
  lemma {:induction false} LaterPassFront(list: seq<string>, pending: seq<string>, flavor: string, index: nat)
    requires index >= 1 && list != [] && !Contains(list[0], flavor)
    requires forall x :: x in pending ==> x in list
    ensures var r := MoveMatches(list, pending, flavor, index); r != [] && r[0] == list[0]
    decreases |pending|
  {
    if pending != [] {
      var e := pending[0];
      MoveMatchesStep(list, pending, flavor, index);
      if Contains(e, flavor) {
        MoveBehindFront(list, e, index);
        LaterPassFront(MoveTo(list, e, index), pending[1..], flavor, index);
      } else {
        LaterPassFront(list, pending[1..], flavor, index);
      }
    }
  }

  lemma MoveBehindFront(list: seq<string>, e: string, index: nat)
    requires index >= 1 && list != [] && list[0] != e && e in list
    ensures var r := MoveTo(list, e, index); r != [] && r[0] == list[0]
  {
    assert list == [list[0]] + list[1..];
    var removed := RemoveFirst(list, e);
    assert removed == [list[0]] + RemoveFirst(list[1..], e);
  }

  lemma {:induction false} LaterFlavorsFront(list: seq<string>, flavors: seq<string>, k: nat)
    requires 1 <= k <= |flavors| && list != []
    requires forall j :: k <= j < |flavors| ==> !Contains(list[0], flavors[j])
    ensures var r := SortByFlavors(list, flavors, k); r != [] && r[0] == list[0]
    decreases |flavors| - k
  {
    if k < |flavors| {
      LaterPassFront(list, list, flavors[k], k);
      LaterFlavorsFront(MoveMatches(list, list, flavors[k], k), flavors, k + 1);
    }
  }

  /**
   * The selection's first pick contains the top-priority flavour whenever
   * some candidate does, provided no candidate containing the top flavour
   * also contains a lower one (for the default video priority, no name
   * containing both `hevc` and `h264`).
   */
  lemma FirstPickHasTopFlavor(encoders: seq<string>, flavors: seq<string>)
    requires |flavors| >= 1
    requires exists e :: e in encoders && Contains(e, flavors[0])
    requires forall e, k :: e in encoders && Contains(e, flavors[0]) && 1 <= k < |flavors| ==> !Contains(e, flavors[k])
    ensures Contains(EncoderSelection(encoders, flavors)[0], flavors[0])
  {
    FirstPassFront(encoders, encoders, flavors[0]);
    var first := MoveMatches(encoders, encoders, flavors[0], 0);
    assert first[0] in first;
    LaterFlavorsFront(first, flavors, 1);
  }

  /** A text in which the first two characters of `pat` never appear side by side does not contain `pat`. */
  lemma NoLeadingPair(s: string, pat: string)
    requires |pat| >= 2
    requires forall j :: 0 <= j < |s| - 1 ==> !(s[j] == pat[0] && s[j + 1] == pat[1])
    ensures !Contains(s, pat)
  {
    forall j | 0 <= j <= |s| ensures !OccursAt(s, pat, j) {
      if j + |pat| <= |s| {
        var w := s[j..j + |pat|];
        assert w[0] == s[j] && w[1] == s[j + 1];
      }
    }
  }

  /** Which of the example names contain which flavour. */
  lemma ExampleFlavorMatches()
    ensures Contains("hevc_nvenc", "hevc")
    ensures !Contains("h264_nvenc", "hevc") && !Contains("vp9", "hevc")
    ensures !Contains("hevc_nvenc", "h264")
  {
    assert OccursAt("hevc_nvenc", "hevc", 0);
    NoLeadingPair("h264_nvenc", "hevc");
    NoLeadingPair("hevc_nvenc", "h264");
    NoLeadingPair("vp9", "hevc");
  }

  /** The worked example: with priority `hevc` then `h264`, the HEVC encoder is picked first. */
  lemma HevcPickedFirst()
    ensures EncoderSelection(["h264_nvenc", "hevc_nvenc", "vp9"], ["hevc", "h264"])[0] == "hevc_nvenc"
  {
    var encoders := ["h264_nvenc", "hevc_nvenc", "vp9"];
    ExampleFlavorMatches();
    var flavors := ["hevc", "h264"];
    assert "hevc_nvenc" in encoders;
    forall e, k | e in encoders && Contains(e, flavors[0]) && 1 <= k < |flavors|
      ensures !Contains(e, flavors[k])
    {
      assert e == "hevc_nvenc" && k == 1;
    }
    FirstPickHasTopFlavor(encoders, flavors);
    var r := EncoderSelection(encoders, ["hevc", "h264"]);
    assert r[0] in multiset(r);
  }
}

=== FILE: helpers.dfy ===
/**
 * Small helpers of the downloader: picking the variant playlist out of the
 * master playlist, rebuilding a movie's uuid from the scrambled form embedded
 * in its page, and the checks applied to the command-line arguments.
 */
module Helpers {
  import opened Wrappers
  import opened Text

  // ---------------------------------------------------------------------------
  // find_last_non_empty_line
  // ---------------------------------------------------------------------------

  /** The position of the last line of `lines` that is not all whitespace, if any. */
  function LastNonBlank(lines: seq<string>): (r: Option<nat>)
    ensures r.Some? ==> r.value < |lines| && !IsBlank(lines[r.value])
    ensures r.Some? ==> forall k :: r.value < k < |lines| ==> IsBlank(lines[k])
    ensures r.None? <==> forall k :: 0 <= k < |lines| ==> IsBlank(lines[k])
  {
    if lines == [] then None
    else if !IsBlank(lines[|lines| - 1]) then Some(|lines| - 1)
    else
      var init := lines[..|lines| - 1];
      var r := LastNonBlank(init);
      assert forall k :: 0 <= k < |init| ==> init[k] == lines[k];
      r
  }

  /**
   * `find_last_non_empty_line`: split the text into lines, walk them from the
   * last one back, and return the first whose `strip()` is not empty. When
   * every line is blank the source raises; that is `None` here.
   */
  method FindLastNonEmptyLine(text: string) returns (r: Option<string>)
    ensures var lines := SplitLines(text);
      r == (match LastNonBlank(lines) case Some(k) => Some(lines[k]) case None => None)
  {
    var lines := SplitLines(text);
    var i := |lines|;
    assert lines[..i] == lines;
    while i > 0
      invariant 0 <= i <= |lines|
      invariant LastNonBlank(lines) == LastNonBlank(lines[..i])
    {
      i := i - 1;
      var line := lines[i];
      LastNonBlankStep(lines, i);
      if Strip(line) != [] {
        return Some(line);
      }
    }
    return None;
  }

  /** Looking one line further back: that line, if it is not blank, else the search goes on. */
  lemma LastNonBlankStep(lines: seq<string>, i: nat)
    requires i < |lines|
    ensures LastNonBlank(lines[..i + 1]) == if IsBlank(lines[i]) then LastNonBlank(lines[..i]) else Some(i)
  {
    assert lines[..i + 1][..i] == lines[..i];
  }

  /** Blank lines after the last non-blank one do not change the line found. */
  lemma {:induction false} TrailingBlankLinesIgnored(lines: seq<string>, blanks: seq<string>)
    requires forall k :: 0 <= k < |blanks| ==> IsBlank(blanks[k])
    ensures LastNonBlank(lines + blanks) == LastNonBlank(lines)
    decreases |blanks|
  {
    if blanks != [] {
      var s := lines + blanks;
      var shorter := blanks[..|blanks| - 1];
      assert s[|s| - 1] == blanks[|blanks| - 1];
      assert s[..|s| - 1] == lines + shorter;
      TrailingBlankLinesIgnored(lines, shorter);
    } else {
      assert lines + blanks == lines;
    }
  }

  /** The line found is one whole line: it holds no line break. */
  lemma FoundLineIsOneLine(text: string)
    ensures var lines := SplitLines(text);
      LastNonBlank(lines).Some? ==> IsSingleLine(lines[LastNonBlank(lines).value])
  {
  }

  // ---------------------------------------------------------------------------
  // The uuid hidden in a movie page
  // ---------------------------------------------------------------------------

  /**
   * The page carries the uuid's groups in reverse order, joined by `|`; the
   * uuid is those groups reversed again and joined by `-`.
   */
  function UuidFromMatch(result: string): (r: string)
    ensures '|' !in r
    ensures '|' !in result ==> r == result
  {
    var groups := Reverse(Split(result, '|'));
    JoinFree(groups, '-', '|');
    Join(groups, '-')
  }

  /**
   * When the scrambled text has no `-`, the uuid's `-`-separated groups are the
   * page's `|`-separated groups in reverse order, so there are as many `-` in
   * the uuid as there were `|` on the page.
   */
  lemma UuidGroups(result: string)
    requires '-' !in result
    ensures Split(UuidFromMatch(result), '-') == Reverse(Split(result, '|'))
    ensures Count(UuidFromMatch(result), '-') == Count(result, '|')
  {
    var groups := Split(result, '|');
    forall k | 0 <= k < |groups| ensures '-' !in groups[k] {
      SplitPiecesFromInput(result, '|', k);
    }
    var reversed := Reverse(groups);
    assert forall k :: 0 <= k < |reversed| ==> '-' !in reversed[k];
    SplitJoin(reversed, '-');
    SplitCount(result, '|');
    SplitCount(UuidFromMatch(result), '-');
  }

  /**
   * Undoing the reordering: splitting the uuid at `-`, reversing and joining
   * with `|` gives back the scrambled text, when that text has no `-`.
   */
  lemma UuidRoundTrip(result: string)
    requires '-' !in result
    ensures Join(Reverse(Split(UuidFromMatch(result), '-')), '|') == result
  {
    UuidGroups(result);
    ReverseReverse(Split(result, '|'));
    JoinSplit(result, '|');
  }

  /** Every character of a piece of `s.split(c)` is a character of `s`. */
  lemma {:induction false} SplitPiecesFromInput(s: string, c: char, k: nat)
    requires k < |Split(s, c)|
    ensures forall x :: x in Split(s, c)[k] ==> x in s
    decreases |s|
  {
    var i := IndexOf(s, c);
    if i < |s| {
      if k == 0 {
        assert forall x :: x in s[..i] ==> x in s;
      } else {
        SplitPiecesFromInput(s[i + 1..], c, k - 1);
        assert forall x :: x in s[i + 1..] ==> x in s;
      }
    }
  }

  /** Three groups `a|b|c` become the uuid `c-b-a`. */
  lemma ThreeGroups(a: string, b: string, c: string)
    requires '|' !in a && '|' !in b && '|' !in c
    ensures UuidFromMatch(a + "|" + b + "|" + c) == c + "-" + b + "-" + a
  {
    JoinThree(a, b, c, '|');
    SplitJoin([a, b, c], '|');
    assert Reverse([a, b, c]) == [c, b, a];
    JoinThree(c, b, a, '-');
  }

  lemma JoinThree(a: string, b: string, c: string, sep: char)
    ensures Join([a, b, c], sep) == a + [sep] + b + [sep] + c
  {
    assert [a, b, c][1..] == [b, c];
    assert [b, c][1..] == [c];
    assert Join([b, c], sep) == b + [sep] + c;
    assert a + [sep] + (b + [sep] + c) == a + [sep] + b + [sep] + c;
  }

  // ---------------------------------------------------------------------------
  // Argument checks
  // ---------------------------------------------------------------------------

  /** `check_single_non_none`: exactly one of the five arguments was given. */
  function CheckSingleNonNone<A, B, C, D, E>(p1: Option<A>, p2: Option<B>, p3: Option<C>, p4: Option<D>, p5: Option<E>): (r: bool)
    ensures r <==>
      || (p1.Some? && p2.None? && p3.None? && p4.None? && p5.None?)
      || (p1.None? && p2.Some? && p3.None? && p4.None? && p5.None?)
      || (p1.None? && p2.None? && p3.Some? && p4.None? && p5.None?)
      || (p1.None? && p2.None? && p3.None? && p4.Some? && p5.None?)
      || (p1.None? && p2.None? && p3.None? && p4.None? && p5.Some?)
  {
    var given :=
      (if p1.Some? then 1 else 0) + (if p2.Some? then 1 else 0) + (if p3.Some? then 1 else 0)
      + (if p4.Some? then 1 else 0) + (if p5.Some? then 1 else 0);
    given == 1
  }

  /** `check_auth`: no credentials, or exactly a username and a password. */
  function CheckAuth(auth: Option<seq<string>>): (r: bool)
    ensures r <==> auth.None? || |auth.value| == 2
    ensures r && auth.Some? ==> exists user, password :: auth.value == [user, password]
  {
    if auth.None? then true
    else
      if |auth.value| == 2 then
        assert auth.value == [auth.value[0], auth.value[1]];
        true
      else false
  }

  /** Python's `s.isdigit()` on ASCII text: non-empty and digits only. */
  predicate IsDigitString(s: string)
  {
    s != [] && IsDigits(s)
  }

  /**
   * `check_limit`: no limit, or a run of digits whose value is positive. A
   * sign, a blank, a letter or the empty string are refused before any
   * conversion is attempted.
   */
  function CheckLimit(limit: Option<string>): (r: bool)
    ensures r <==> limit.None? || (IsDigitString(limit.value) && exists k :: 0 <= k < |limit.value| && limit.value[k] != '0')
  {
    if limit.None? then true
    else if IsDigitString(limit.value) then
      PositiveIffNonZeroDigit(limit.value);
      DigitsValue(limit.value) > 0
    else false
  }

  /** A run of digits denotes a positive number exactly when one of its digits is not `0`. */
  lemma {:induction false} PositiveIffNonZeroDigit(s: string)
    requires IsDigits(s)
    ensures DigitsValue(s) > 0 <==> exists k :: 0 <= k < |s| && s[k] != '0'
  {
    if s != [] {
      var init := s[..|s| - 1];
      PositiveIffNonZeroDigit(init);
      if DigitsValue(init) > 0 {
        var k :| 0 <= k < |init| && init[k] != '0';
        assert s[k] == init[k];
      }
      assert forall k :: 0 <= k < |init| ==> s[k] == init[k];
    }
  }

  /** A limit accepted by the check reads back through `int()` as a positive number. */
  lemma AcceptedLimitParses(limit: string)
    requires CheckLimit(Some(limit))
    ensures ParseInt(limit).Some? && ParseInt(limit).value > 0
  {
    ParseIntDigits(limit);
    PositiveIffNonZeroDigit(limit);
  }

  // ---------------------------------------------------------------------------
  // check_limit as written: isdigit() admits more than int() reads
  // ---------------------------------------------------------------------------

  /** Superscript one, two and three: Python's `isdigit` accepts them, `int()` does not. */
  predicate IsSuperscriptDigit(c: char)
  {
    c == '\U{b9}' || c == '\U{b2}' || c == '\U{b3}'
  }

  /**
   * Python's `s.isdigit()`, restricted to the ASCII digits and the three
   * superscript digits (the other characters it accepts are not modelled).
   */
  predicate PythonIsDigit(s: string)
  {
    s != [] && forall k :: 0 <= k < |s| ==> IsDigit(s[k]) || IsSuperscriptDigit(s[k])
  }

  datatype LimitError = LimitNotAnInteger(text: string)

  /**
   * `check_limit` as the source has it: a string passing `isdigit()` is handed
   * to `int()`, which raises `ValueError` when one of its characters is a
   * superscript digit; the exception escapes the check.
   */
  function CheckLimitAsWritten(limit: Option<string>): (r: Result<bool, LimitError>)
    ensures r.Err? <==> limit.Some? && PythonIsDigit(limit.value) && ParseInt(limit.value).None?
    ensures r.Ok? ==> r.value == CheckLimit(limit)
  {
    if limit.None? then Ok(true)
    else if PythonIsDigit(limit.value) then
      IsDigitsParses(limit.value);
      if IsDigits(limit.value) then Ok(DigitsValue(limit.value) > 0)
      else Err(LimitNotAnInteger(limit.value))
    else Ok(false)
  }

  /** On an `isdigit()` string, `int()` succeeds exactly when every digit is an ASCII one. */
  lemma IsDigitsParses(s: string)
    requires PythonIsDigit(s)
    ensures ParseInt(s).Some? <==> IsDigits(s)
  {
    assert !IsSpace(s[0]) && !IsSpace(s[|s| - 1]);
    StripUnpadded(s);
    assert s[0] != '+' && s[0] != '-';
  }

  /** `"\U{b2}"` (superscript two) passes `isdigit()`, so the source's check raises instead of refusing it. */
  lemma SuperscriptLimitRaises()
    ensures CheckLimitAsWritten(Some("\U{b2}")).Err?
    ensures !CheckLimit(Some("\U{b2}"))
  {
    var s := "\U{b2}";
    assert PythonIsDigit(s);
    assert !IsDigit(s[0]);
  }
}

=== FILE: intervals.dfy ===
/**
 * The interval partitioner: a segment count is cut into `n` contiguous
 * half-open index ranges, one per download worker.
 */
module Intervals {

  /** The half-open range `[start, end)` of segment indices handed to one worker. */
  datatype Interval = Interval(start: int, end: int)
  {
    predicate Contains(x: int)
    {
      start <= x < end
    }
  }

  /** Each range ends where the next one starts. */
  predicate Contiguous(r: seq<Interval>)
  {
    forall i :: 0 <= i < |r| - 1 ==> r[i].end == r[i + 1].start
  }

  /** No range runs backwards. */
  predicate NonNegativeLengths(r: seq<Interval>)
  {
    forall i :: 0 <= i < |r| ==> r[i].start <= r[i].end
  }

  /**
   * `split_integer_into_intervals(integer, n)`: `n` ranges of length
   * `integer // n` laid end to end from 0, the last one lengthened by
   * `integer % n` so that it stops at `integer`. For `n >= 1` Dafny's `/` and `%`
   * agree with Python's `//` and `%`; `n <= 0` makes the source raise, so it is
   * excluded.
   */
  function SplitIntoIntervals(integer: int, n: int): (r: seq<Interval>)
    requires n >= 1
    ensures |r| == n
    ensures r[0].start == 0 && r[n - 1].end == integer
    ensures Contiguous(r)
    ensures forall i :: 0 <= i < n - 1 ==> r[i].end - r[i].start == integer / n
    ensures r[n - 1].end - r[n - 1].start == integer / n + integer % n
    ensures integer >= 0 ==> NonNegativeLengths(r)
  {
    var size := integer / n;
    var remainder := integer % n;
    var intervals := seq(n, i => Interval(i * size, (i + 1) * size));
    EqualStepsShape(intervals, size, n);
    DivisionFacts(integer, n);
    var last := Interval(intervals[n - 1].start, intervals[n - 1].end + remainder);
    intervals[n - 1 := last]
  }

  lemma DivisionFacts(integer: int, n: int)
    requires n >= 1
    ensures n * (integer / n) + integer % n == integer
    ensures 0 <= integer % n < n
    ensures integer >= 0 ==> integer / n >= 0
  {
  }

  lemma EqualStepsShape(intervals: seq<Interval>, size: int, n: int)
    requires n >= 1
    requires intervals == seq(n, i => Interval(i * size, (i + 1) * size))
    ensures intervals[0].start == 0
    ensures Contiguous(intervals)
    ensures forall i :: 0 <= i < n ==> intervals[i].end - intervals[i].start == size
    ensures intervals[n - 1].end == n * size
  {
    forall i | 0 <= i < n ensures intervals[i].end - intervals[i].start == size {
      StepLength(i, size);
    }
  }

  lemma StepLength(i: int, size: int)
    ensures (i + 1) * size - i * size == size
  {
  }

  /** In a contiguous chain of forward ranges, an earlier range ends before a later one starts. */
  lemma {:induction false} ChainAscending(r: seq<Interval>, i: int, j: int)
    requires Contiguous(r) && NonNegativeLengths(r)
    requires 0 <= i < j < |r|
    ensures r[i].end <= r[j].start
    decreases j - i
  {
    if j > i + 1 {
      ChainAscending(r, i, j - 1);
    }
  }

  /** A contiguous chain of forward ranges covers every index between its ends. */
  lemma {:induction false} ChainCovers(r: seq<Interval>, x: int)
    requires Contiguous(r) && NonNegativeLengths(r)
    requires |r| >= 1 && r[0].start <= x < r[|r| - 1].end
    ensures Covered(r, x)
  {
    if !r[0].Contains(x) {
      var tail := r[1..];
      assert Contiguous(tail) by {
        forall i | 0 <= i < |tail| - 1 ensures tail[i].end == tail[i + 1].start {
          assert tail[i] == r[i + 1] && tail[i + 1] == r[i + 2];
        }
      }
      ChainCovers(tail, x);
      var i :| 0 <= i < |tail| && tail[i].Contains(x);
      assert r[i + 1] == tail[i];
    }
  }

  /** Index `x` lies in one of the ranges of `r`. */
  predicate Covered(r: seq<Interval>, x: int)
  {
    exists i :: 0 <= i < |r| && r[i].Contains(x)
  }

  /**
   * For `integer >= 0` the ranges partition `[0, integer)`: they start at 0, run
   * forwards, stay inside `[0, integer]`, every index below `integer` lies in
   * one of them, and no index lies in two.
   */
  lemma PartitionCoversExactly(integer: int, n: int)
    requires n >= 1 && integer >= 0
    ensures var r := SplitIntoIntervals(integer, n);
      && (forall i :: 0 <= i < n ==> 0 <= r[i].start <= r[i].end <= integer)
      && (forall x :: 0 <= x < integer ==> Covered(r, x))
      && (forall i, j, x :: 0 <= i < j < n && r[i].Contains(x) ==> !r[j].Contains(x))
  {
    var r := SplitIntoIntervals(integer, n);
    forall i | 0 <= i < n ensures 0 <= r[i].start <= r[i].end <= integer {
      if i > 0 { ChainAscending(r, 0, i); }
      if i < n - 1 { ChainAscending(r, i, n - 1); }
    }
    forall x | 0 <= x < integer ensures Covered(r, x) {
      ChainCovers(r, x);
    }
    forall i, j, x | 0 <= i < j < n && r[i].Contains(x) ensures !r[j].Contains(x) {
      ChainAscending(r, i, j);
    }
  }

  /** With fewer segments than workers every range but the last is empty and the last takes all. */
  lemma FewerSegmentsThanWorkers(integer: int, n: int)
    requires 0 <= integer < n
    ensures var r := SplitIntoIntervals(integer, n);
      && (forall i :: 0 <= i < n - 1 ==> r[i] == Interval(0, 0))
      && r[n - 1] == Interval(0, integer)
  {
    assert integer / n == 0;
    assert integer % n == integer;
  }

  /** The worked example: ten segments over three workers. */
  lemma TenOverThree()
    ensures SplitIntoIntervals(10, 3) == [Interval(0, 3), Interval(3, 6), Interval(6, 10)]
  {
    var r := SplitIntoIntervals(10, 3);
    assert r[0] == Interval(0, 3);
    assert r[1] == Interval(3, 6);
  }
}

=== FILE: progress.dfy ===
/**
 * The transcoder progress monitor: the lines ffmpeg writes with `-progress`
 * are read one at a time and folded into the four figures shown to the user
 * (frame, bitrate, file size with its unit, speed).
 */
module Progress {
  import opened Wrappers
  import opened Text

  // ---------------------------------------------------------------------------
  // File-size units
  // ---------------------------------------------------------------------------

  /** The size units, smallest first; each is 1000 times the one before. */
  const Units: seq<string> := ["B", "kB", "MB", "GB", "TB"]

  /** The largest byte count the unit list can express: `1000^5`. */
  const MaxBytes: int := 1_000_000_000_000_000

  /** `1000^k`. */
  function Pow1000(k: nat): (p: nat)
    ensures p >= 1
  {
    if k == 0 then 1 else 1000 * Pow1000(k - 1)
  }

  lemma {:induction false} Pow1000Monotonic(i: nat, j: nat)
    requires i <= j
    ensures Pow1000(i) <= Pow1000(j)
    decreases j - i
  {
    if i < j {
      Pow1000Monotonic(i, j - 1);
    }
  }

  function StepsFrom(n: int, j: nat): (k: nat)
    requires j == 0 || n > Pow1000(j)
    ensures k >= j && n <= Pow1000(k + 1) && (k == 0 || n > Pow1000(k))
    decreases n - Pow1000(j)
  {
    if n <= Pow1000(j + 1) then j else StepsFrom(n, j + 1)
  }

  /**
   * How many times the step-down divides `n` bytes by 1000: the least `j`
   * with `n <= 1000^(j+1)`. It is 0 exactly when `n <= 1000` (the test is a
   * strict `>`), negative counts included.
   */
  function Steps(n: int): (j: nat)
    ensures n <= Pow1000(j + 1)
    ensures j > 0 ==> n > Pow1000(j)
    ensures j < |Units| <==> n <= MaxBytes
  {
    var j := StepsFrom(n, 0);
    assert Pow1000(5) == MaxBytes;
    if j < |Units| then
      Pow1000Monotonic(j + 1, 5);
      j
    else
      Pow1000Monotonic(5, j);
      j
  }

  /** No smaller count of divisions brings `n` down to 1000 or below. */
  lemma StepsLeast(n: int, i: nat)
    requires i < Steps(n)
    ensures n > Pow1000(i + 1)
  {
    Pow1000Monotonic(i + 1, Steps(n));
  }

  datatype ProgressError =
    | NotAnInteger(text: string)   // `int(sdata)` raises ValueError
    | UnitsExhausted(bytes: int)   // `unit.pop(0)` or `unit[0]` on the emptied list raises IndexError

  /**
   * The unit the step-down ends on for a `total_size` of `n` bytes: the
   * `Steps(n)`-th unit, or an error once all five units have been popped,
   * which happens exactly when `n` exceeds `1000^5`.
   */
  function SizeUnit(n: int): (r: Result<string, ProgressError>)
    ensures r.Err? <==> n > MaxBytes
    ensures r.Err? ==> r.error == UnitsExhausted(n)
    ensures r.Ok? ==> Steps(n) < |Units| && r.value == Units[Steps(n)]
  {
    var j := Steps(n);
    if j < |Units| then Ok(Units[j]) else Err(UnitsExhausted(n))
  }

  /**
   * The `while size > 1000` loop of the `total_size` case, on exact integers:
   * `divisor` is the power of 1000 the size has been divided by so far, and
   * each division pops the front unit.
   */
  method StepDownUnit(n: int) returns (r: Result<string, ProgressError>)
    ensures r == SizeUnit(n)
  {
    var unit := Units;
    var divisor: nat := 1;
    var steps: nat := 0;
    while n > 1000 * divisor
      invariant steps <= |Units| && unit == Units[steps..]
      invariant divisor == Pow1000(steps)
      invariant steps <= Steps(n)
      decreases Steps(n) - steps
    {
      assert steps < Steps(n);
      if unit == [] {
        return Err(UnitsExhausted(n));
      }
      divisor := 1000 * divisor;
      unit := unit[1..];
      steps := steps + 1;
    }
    if steps < Steps(n) {
      StepsLeast(n, steps);
    }
    if unit == [] {
      return Err(UnitsExhausted(n));
    }
    return Ok(unit[0]);
  }

  // ---------------------------------------------------------------------------
  // One progress line
  // ---------------------------------------------------------------------------

  /** The size shown: unset (the initial 0) until a `total_size` line, then the byte count and its unit. */
  datatype Size = NoSize | Sized(bytes: int, unit: string)

  /**
   * The four figures. `bitrate` and `speed` start as the number 0 and become
   * text; both are kept as the text they print as.
   */
  datatype Status = Status(frame: int, bitrate: string, size: Size, speed: string)

  const Initial: Status := Status(0, "0", NoSize, "0")

  /**
   * `stype, sdata = status.split("=")`: the key and the value of a line with
   * exactly one `=`; any other line makes the unpacking raise and is skipped.
   */
  function Entry(line: string): (r: Option<(string, string)>)
    ensures r.Some? <==> Count(line, '=') == 1
    ensures r.Some? ==> line == r.value.0 + "=" + r.value.1 && '=' !in r.value.0 && '=' !in r.value.1
  {
    var parts := Split(line, '=');
    SplitCount(line, '=');
    if |parts| == 2 then
      JoinSplit(line, '=');
      Some((parts[0], parts[1]))
    else None
  }

  /** The key of a line that has one, or the empty string. */
  function Key(line: string): string
  {
    match Entry(line)
    case None => ""
    case Some((key, _)) => key
  }

  /**
   * The case analysis on the key: `frame` and `total_size` are read with
   * `int()`, `bitrate` and `speed` are stored stripped, and any other line
   * changes nothing. A value `int()` rejects aborts the monitor.
   */
  function Apply(state: Status, line: string): (r: Result<Status, ProgressError>)
    ensures Entry(line).None? ==> r == Ok(state)
    ensures r.Err? ==> Key(line) == "frame" || Key(line) == "total_size"
    ensures Entry(line).Some? && (Key(line) == "frame" || Key(line) == "total_size") && ParseInt(Entry(line).value.1).None?
      ==> r == Err(NotAnInteger(Entry(line).value.1))
    ensures r.Ok? ==> r.value.frame == state.frame || Key(line) == "frame"
    ensures r.Ok? ==> r.value.bitrate == state.bitrate || Key(line) == "bitrate"
    ensures r.Ok? ==> r.value.size == state.size || Key(line) == "total_size"
    ensures r.Ok? ==> r.value.speed == state.speed || Key(line) == "speed"
  {
    match Entry(line)
    case None => Ok(state)
    case Some((key, data)) =>
      if key == "frame" then
        match ParseInt(data)
        case None => Err(NotAnInteger(data))
        case Some(n) => Ok(state.(frame := n))
      else if key == "bitrate" then
        Ok(state.(bitrate := Strip(data)))
      else if key == "total_size" then
        match ParseInt(data)
        case None => Err(NotAnInteger(data))
        case Some(n) =>
          match SizeUnit(n)
          case Err(e) => Err(e)
          case Ok(u) => Ok(state.(size := Sized(n, u)))
      else if key == "speed" then
        Ok(state.(speed := Strip(data)))
      else
        Ok(state)
  }

  /** The lines read so far, folded into the figures; the first error stops the fold. */
  function Run(state: Status, lines: seq<string>): (r: Result<Status, ProgressError>)
    ensures (forall k :: 0 <= k < |lines| ==> Entry(lines[k]).None?) ==> r == Ok(state)
    ensures r.Err? ==> exists k :: 0 <= k < |lines| && (Key(lines[k]) == "frame" || Key(lines[k]) == "total_size")
    decreases |lines|
  {
    if lines == [] then Ok(state)
    else
      match Apply(state, lines[0])
      case Err(e) => Err(e)
      case Ok(next) =>
        var r := Run(next, lines[1..]);
        assert forall k :: 0 <= k < |lines[1..]| ==> lines[1..][k] == lines[k + 1];
        r
  }

  /**
   * The monitoring loop of `generate_mp4_by_ffmpeg`, over the lines read
   * while the transcoder is still running (`poll()` is `None`), the last of
   * which may be the empty line of end of output: four variables reassigned
   * per line, with the unit step-down run for `total_size`.
   */
  method Monitor(lines: seq<string>) returns (r: Result<Status, ProgressError>)
    ensures r == Run(Initial, lines)
  {
    var frame := 0;
    var bitrate := "0";
    var size := NoSize;
    var speed := "0";
    var i := 0;
    while i < |lines|
      invariant 0 <= i <= |lines|
      invariant Run(Initial, lines) == Run(Status(frame, bitrate, size, speed), lines[i..])
    {
      var status := lines[i];
      assert lines[i..][1..] == lines[i + 1..];
      var parts := Split(status, '=');
      if |parts| == 2 {
        var stype, sdata := parts[0], parts[1];
        if stype == "frame" {
          var v := ParseInt(sdata);
          if v.None? {
            return Err(NotAnInteger(sdata));
          }
          frame := v.value;
        } else if stype == "bitrate" {
          bitrate := Strip(sdata);
        } else if stype == "total_size" {
          var v := ParseInt(sdata);
          if v.None? {
            return Err(NotAnInteger(sdata));
          }
          var unit := StepDownUnit(v.value);
          if unit.Err? {
            return Err(unit.error);
          }
          size := Sized(v.value, unit.value);
        } else if stype == "speed" {
          speed := Strip(sdata);
        }
      }
      i := i + 1;
    }
    return Ok(Status(frame, bitrate, size, speed));
  }

  // ---------------------------------------------------------------------------
  // What the fold promises
  // ---------------------------------------------------------------------------

  /** Some line of `lines` carries `key`. */
  predicate Mentions(lines: seq<string>, key: string)
  {
    exists k :: 0 <= k < |lines| && Key(lines[k]) == key
  }

  /** A figure changes only through a line carrying its own key. */
  lemma {:induction false} RunKeepsUnmentioned(state: Status, lines: seq<string>)
    requires Run(state, lines).Ok?
    ensures var s := Run(state, lines).value;
      && (!Mentions(lines, "frame") ==> s.frame == state.frame)
      && (!Mentions(lines, "bitrate") ==> s.bitrate == state.bitrate)
      && (!Mentions(lines, "total_size") ==> s.size == state.size)
      && (!Mentions(lines, "speed") ==> s.speed == state.speed)
    decreases |lines|
  {
    if lines != [] {
      var next := Apply(state, lines[0]).value;
      RunKeepsUnmentioned(next, lines[1..]);
      forall key | Mentions(lines[1..], key) ensures Mentions(lines, key) {
        var k :| 0 <= k < |lines[1..]| && Key(lines[1..][k]) == key;
        assert lines[k + 1] == lines[1..][k];
      }
    }
  }

  /** Running two stretches of output one after the other is running them together. */
  lemma {:induction false} RunAppend(state: Status, a: seq<string>, b: seq<string>)
    ensures Run(state, a + b) == match Run(state, a) case Err(e) => Err(e) case Ok(s) => Run(s, b)
    decreases |a|
  {
    if a == [] {
      assert a + b == b;
    } else {
      assert (a + b)[0] == a[0];
      assert (a + b)[1..] == a[1..] + b;
      match Apply(state, a[0])
      case Err(_) =>
      case Ok(next) => RunAppend(next, a[1..], b);
    }
  }

  /** The empty line read once the transcoder has closed its output changes nothing. */
  lemma EndOfOutputIgnored(state: Status)
    ensures Apply(state, "") == Ok(state)
  {
    assert Count("", '=') == 0;
  }

  /** A line whose key is none of the four the monitor knows changes nothing. */
  lemma UnknownKeyIgnored(state: Status, line: string)
    requires Key(line) != "frame" && Key(line) != "bitrate" && Key(line) != "total_size" && Key(line) != "speed"
    ensures Apply(state, line) == Ok(state)
  {
  }

  /** A line with exactly one `=` splits into the text before and after it. */
  lemma EntryOf(key: string, value: string)
    requires '=' !in key && '=' !in value
    ensures Entry(key + "=" + value) == Some((key, value))
  {
    var line := key + "=" + value;
    SplitJoin([key, value], '=');
    assert Join([key, value], '=') == line by {
      assert Join([value], '=') == value;
    }
  }

  lemma DecimalHasNoEquals(n: nat, ws: string)
    requires IsBlank(ws)
    ensures '=' !in NatToString(n) + ws
  {
    var s := NatToString(n) + ws;
    forall k | 0 <= k < |s| ensures s[k] != '=' {
      if k < |NatToString(n)| {
        assert IsDigit(NatToString(n)[k]);
      } else {
        assert IsSpace(ws[k - |NatToString(n)|]);
      }
    }
  }

  /** `frame=<n>` followed by whitespace (such as the newline) sets the frame count and nothing else. */
  lemma FrameLine(state: Status, n: nat, ws: string)
    requires IsBlank(ws)
    ensures Apply(state, "frame=" + NatToString(n) + ws) == Ok(state.(frame := n))
  {
    assert "frame=" == "frame" + "=";
    DecimalEntry("frame", n, ws);
    ApplyParsed(state, "frame=" + NatToString(n) + ws, "frame", NatToString(n) + ws, n);
  }

  /** `speed=<v>` stores `v` stripped and changes nothing else. */
  lemma SpeedLine(state: Status, v: string)
    requires '=' !in v
    ensures Apply(state, "speed=" + v) == Ok(state.(speed := Strip(v)))
  {
    assert "speed=" + v == "speed" + "=" + v;
    EntryOf("speed", v);
    ApplyText(state, "speed=" + v, "speed", v);
  }

  /**
   * `total_size=<n>` followed by whitespace records `n` bytes with the unit
   * the step-down picks, or fails when `n` exceeds `1000^5`.
   */
  lemma TotalSizeLine(state: Status, n: nat, ws: string)
    requires IsBlank(ws)
    ensures Apply(state, "total_size=" + NatToString(n) + ws)
         == if n <= MaxBytes then Ok(state.(size := Sized(n, Units[Steps(n)]))) else Err(UnitsExhausted(n))
  {
    assert "total_size=" == "total_size" + "=";
    DecimalEntry("total_size", n, ws);
    ApplyParsed(state, "total_size=" + NatToString(n) + ws, "total_size", NatToString(n) + ws, n);
  }

  /** A line whose key is stored as text. */
  lemma ApplyText(state: Status, line: string, key: string, data: string)
    requires Entry(line) == Some((key, data))
    ensures key == "bitrate" ==> Apply(state, line) == Ok(state.(bitrate := Strip(data)))
    ensures key == "speed" ==> Apply(state, line) == Ok(state.(speed := Strip(data)))
  {
  }

  /** A line whose key is read with `int()` and whose value reads as `n`. */
  lemma ApplyParsed(state: Status, line: string, key: string, data: string, n: int)
    requires Entry(line) == Some((key, data)) && ParseInt(data) == Some(n)
    ensures key == "frame" ==> Apply(state, line) == Ok(state.(frame := n))
    ensures key == "total_size" ==>
      Apply(state, line) == if n <= MaxBytes then Ok(state.(size := Sized(n, Units[Steps(n)]))) else Err(UnitsExhausted(n))
  {
  }

  /** A line `<key>=<n>` followed by whitespace carries the key and a value `int()` reads as `n`. */
  lemma DecimalEntry(key: string, n: nat, ws: string)
    requires '=' !in key && IsBlank(ws)
    ensures Entry(key + "=" + NatToString(n) + ws) == Some((key, NatToString(n) + ws))
    ensures ParseInt(NatToString(n) + ws) == Some(n)
  {
    var data := NatToString(n) + ws;
    DecimalHasNoEquals(n, ws);
    assert key + "=" + NatToString(n) + ws == key + "=" + data;
    EntryOf(key, data);
    ParseIntOfDecimal(n, ws);
  }

  /** The unit index is unique: it is the count of divisions. */
  lemma SameSteps(n: int, j: nat)
    requires n <= Pow1000(j + 1) && (j == 0 || n > Pow1000(j))
    ensures Steps(n) == j
  {
    if Steps(n) < j {
      Pow1000Monotonic(Steps(n) + 1, j);
    } else if Steps(n) > j {
      StepsLeast(n, j);
    }
  }

  /** Up to 1000 bytes (the test is strict) the unit stays `B`. */
  lemma SmallSizesInBytes(n: int)
    requires n <= 1000
    ensures SizeUnit(n) == Ok("B")
  {
    SameSteps(n, 0);
  }

  /** 2 500 000 bytes are shown in `MB`. */
  lemma MegabyteExample()
    ensures SizeUnit(2500000) == Ok("MB")
  {
    assert Pow1000(2) == 1000000 && Pow1000(3) == 1000000000;
    SameSteps(2500000, 2);
  }
}

=== FILE: text.dfy ===
/**
 * The handful of Python `str` operations the downloader relies on, written out
 * over `seq<char>`: `strip()`, `split(c)`, `sep.join(parts)`, `sub in s`,
 * `str(n)`, `int(s)` and `splitlines()`.
 */
module Text {
  import opened Wrappers

  // ---------------------------------------------------------------------------
  // Whitespace and str.strip()
  // ---------------------------------------------------------------------------

  /** The characters Python's `str.isspace` accepts; `str.strip()` removes exactly these. */
  predicate IsSpace(c: char)
  {
    || c == ' '
    || '\t' <= c <= '\r'
    || '\U{1c}' <= c <= '\U{1f}'
    || c == '\U{85}' || c == '\U{a0}' || c == '\U{1680}'
    || '\U{2000}' <= c <= '\U{200a}'
    || c == '\U{2028}' || c == '\U{2029}' || c == '\U{202f}' || c == '\U{205f}' || c == '\U{3000}'
  }

  /** Every character of `s` is whitespace (the empty string included). */
  predicate IsBlank(s: string)
  {
    forall i :: 0 <= i < |s| ==> IsSpace(s[i])
  }

  /** The length of the longest all-whitespace prefix of `s`. */
  function LeadingSpaces(s: string): (k: nat)
    ensures k <= |s|
    ensures IsBlank(s[..k])
    ensures k < |s| ==> !IsSpace(s[k])
  {
    if s == [] || !IsSpace(s[0]) then 0
    else
      var k := 1 + LeadingSpaces(s[1..]);
      assert s[..k] == [s[0]] + s[1..][..k - 1];
      k
  }

  /** The length of the longest all-whitespace suffix of `s`. */
  function TrailingSpaces(s: string): (k: nat)
    ensures k <= |s|
    ensures IsBlank(s[|s| - k..])
    ensures k < |s| ==> !IsSpace(s[|s| - k - 1])
  {
    if s == [] || !IsSpace(s[|s| - 1]) then 0
    else
      var p := s[..|s| - 1];
      var k := 1 + TrailingSpaces(p);
      var tail := s[|s| - k..];
      assert IsBlank(tail) by {
        forall n | 0 <= n < |tail| ensures IsSpace(tail[n]) {
          if n < k - 1 {
            assert tail[n] == p[|p| - (k - 1)..][n];
          }
        }
      }
      assert k < |s| ==> s[|s| - k - 1] == p[|p| - (k - 1) - 1];
      k
  }

  /**
   * Python's `s.strip()`: `s` without its leading and trailing whitespace.
   * The result is a slice of `s` with only whitespace cut off on either side,
   * and it is empty exactly when `s` is blank.
   */
  function Strip(s: string): (r: string)
    ensures exists i, j :: 0 <= i <= j <= |s| && r == s[i..j] && IsBlank(s[..i]) && IsBlank(s[j..])
    ensures r == [] <==> IsBlank(s)
    ensures r != [] ==> !IsSpace(r[0]) && !IsSpace(r[|r| - 1])
  {
    var i := LeadingSpaces(s);
    var j := |s| - TrailingSpaces(s[i..]);
    StripBounds(s, i, j);
    s[i..j]
  }

  lemma StripBounds(s: string, i: nat, j: int)
    requires i == LeadingSpaces(s) && j == |s| - TrailingSpaces(s[i..])
    ensures 0 <= i <= j <= |s| && IsBlank(s[..i]) && IsBlank(s[j..])
    ensures i == j <==> IsBlank(s)
    ensures i < j ==> !IsSpace(s[i]) && !IsSpace(s[j - 1])
  {
    var t := s[i..];
    var k := TrailingSpaces(t);
    assert s[j..] == t[|t| - k..];
    if i < j {
      assert t[|t| - k - 1] == s[j - 1];
      assert !IsSpace(s[i]);
    } else {
      BlankHalves(s, i);
    }
  }

  lemma BlankHalves(s: string, i: nat)
    requires i <= |s| && IsBlank(s[..i]) && IsBlank(s[i..])
    ensures IsBlank(s)
  {
    forall n | 0 <= n < |s| ensures IsSpace(s[n]) {
      if n < i {
        assert s[..i][n] == s[n];
      } else {
        assert s[i..][n - i] == s[n];
      }
    }
  }

  // ---------------------------------------------------------------------------
  // str.split(c) and c.join(parts) for a one-character separator
  // ---------------------------------------------------------------------------

  /** The number of occurrences of `c` in `s`. */
  function Count(s: string, c: char): nat
  {
    if s == [] then 0 else (if s[0] == c then 1 else 0) + Count(s[1..], c)
  }

  lemma {:induction false} CountAppend(a: string, b: string, c: char)
    ensures Count(a + b, c) == Count(a, c) + Count(b, c)
  {
    if a == [] {
      assert a + b == b;
    } else {
      assert (a + b)[0] == a[0];
      assert (a + b)[1..] == a[1..] + b;
      CountAppend(a[1..], b, c);
    }
  }

  /** The index of the first `c` in `s`, or `|s|` when there is none. */
  function IndexOf(s: string, c: char): (i: nat)
    ensures i <= |s|
    ensures c !in s[..i]
    ensures i < |s| ==> s[i] == c
  {
    if s == [] || s[0] == c then 0
    else
      var i := 1 + IndexOf(s[1..], c);
      assert s[..i] == [s[0]] + s[1..][..i - 1];
      i
  }

  lemma IndexOfSeparated(a: string, c: char, b: string)
    requires c !in a
    ensures IndexOf(a + [c] + b, c) == |a|
    ensures IndexOf(a, c) == |a|
  {
    var s := a + [c] + b;
    assert s[|a|] == c;
  }

  /**
   * Python's `s.split(c)`: the pieces of `s` between occurrences of `c`,
   * always one more than the number of occurrences, none containing `c`.
   */
  function Split(s: string, c: char): (parts: seq<string>)
    ensures |parts| >= 1
    ensures forall k :: 0 <= k < |parts| ==> c !in parts[k]
    decreases |s|
  {
    var i := IndexOf(s, c);
    if i == |s| then
      assert s[..i] == s;
      [s]
    else
      [s[..i]] + Split(s[i + 1..], c)
  }

  /** Python's `c.join(parts)`. */
  function Join(parts: seq<string>, c: char): string
  {
    if |parts| == 0 then []
    else if |parts| == 1 then parts[0]
    else parts[0] + [c] + Join(parts[1..], c)
  }

  /** `s.split(c)` yields one piece more than there are separators in `s`. */
  lemma {:induction false} SplitCount(s: string, c: char)
    ensures |Split(s, c)| == 1 + Count(s, c)
    decreases |s|
  {
    var i := IndexOf(s, c);
    assert s == s[..i] + s[i..];
    CountAppend(s[..i], s[i..], c);
    CountZero(s[..i], c);
    if i < |s| {
      assert s[i..] == [c] + s[i + 1..];
      CountAppend([c], s[i + 1..], c);
      SplitCount(s[i + 1..], c);
    }
  }

  lemma {:induction false} CountZero(s: string, c: char)
    requires c !in s
    ensures Count(s, c) == 0
  {
    if s != [] {
      assert s[0] != c;
      assert forall x :: x in s[1..] ==> x in s;
      CountZero(s[1..], c);
    }
  }

  /** Joining the pieces of a split with the same separator gives the original string back. */
  lemma {:induction false} JoinSplit(s: string, c: char)
    ensures Join(Split(s, c), c) == s
    decreases |s|
  {
    var i := IndexOf(s, c);
    if i < |s| {
      var rest := s[i + 1..];
      JoinSplit(rest, c);
      JoinCons(s[..i], Split(rest, c), c);
      assert s == s[..i] + [c] + rest;
    }
  }

  /** Joining adds no character other than the separator. */
  lemma {:induction false} JoinFree(parts: seq<string>, sep: char, c: char)
    requires c != sep
    requires forall k :: 0 <= k < |parts| ==> c !in parts[k]
    ensures c !in Join(parts, sep)
  {
    if |parts| > 1 {
      JoinFree(parts[1..], sep, c);
      assert c !in parts[0];
    }
  }

  lemma JoinCons(p: string, parts: seq<string>, c: char)
    requires |parts| >= 1
    ensures Join([p] + parts, c) == p + [c] + Join(parts, c)
  {
    assert ([p] + parts)[1..] == parts;
  }

  /** Splitting a join gives the pieces back when no piece contains the separator. */
  lemma {:induction false} SplitJoin(parts: seq<string>, c: char)
    requires |parts| >= 1
    requires forall k :: 0 <= k < |parts| ==> c !in parts[k]
    ensures Split(Join(parts, c), c) == parts
  {
    if |parts| == 1 {
      IndexOfSeparated(parts[0], c, []);
    } else {
      var p := parts[0];
      var rest := Join(parts[1..], c);
      var s := p + [c] + rest;
      assert Join(parts, c) == s;
      IndexOfSeparated(p, c, rest);
      assert s[..|p|] == p;
      assert s[|p| + 1..] == rest;
      assert Split(s, c) == [p] + Split(rest, c);
      SplitJoin(parts[1..], c);
      assert parts == [p] + parts[1..];
    }
  }

  // ---------------------------------------------------------------------------
  // Lists: reversed(xs) and xs[::-1]
  // ---------------------------------------------------------------------------

  /** The elements of `s` in the opposite order. */
  function Reverse(s: seq<string>): (r: seq<string>)
    ensures |r| == |s|
    ensures forall k :: 0 <= k < |s| ==> r[k] == s[|s| - 1 - k]
    ensures forall x :: x in r <==> x in s
  {
    if s == [] then []
    else
      assert forall x :: x in s <==> x == s[|s| - 1] || x in s[..|s| - 1];
      [s[|s| - 1]] + Reverse(s[..|s| - 1])
  }

  lemma ReverseSnoc(m: seq<string>, e: string)
    ensures Reverse(m + [e]) == [e] + Reverse(m)
  {
    assert (m + [e])[..|m|] == m;
  }

  /** Reversing twice gives the list back. */
  lemma ReverseReverse(s: seq<string>)
    ensures Reverse(Reverse(s)) == s
  {
    var r := Reverse(s);
    assert forall k :: 0 <= k < |s| ==> Reverse(r)[k] == r[|r| - 1 - k] == s[k];
  }

  // ---------------------------------------------------------------------------
  // Substring search: Python's `sub in s`
  // ---------------------------------------------------------------------------

  /** `pat` occurs in `s` starting at index `i`. */
  predicate OccursAt(s: string, pat: string, i: nat)
  {
    i + |pat| <= |s| && s[i..i + |pat|] == pat
  }

  lemma OccursShift(s: string, pat: string, j: nat)
    requires s != []
    ensures OccursAt(s, pat, j + 1) <==> OccursAt(s[1..], pat, j)
  {
    if j + 1 + |pat| <= |s| {
      assert s[j + 1..j + 1 + |pat|] == s[1..][j..j + |pat|];
    }
  }

  /** The index of the first occurrence of `pat` in `s`, if any. */
  function Find(s: string, pat: string): (r: Option<nat>)
    ensures r.Some? ==> OccursAt(s, pat, r.value)
    ensures r.Some? ==> forall j :: 0 <= j < r.value ==> !OccursAt(s, pat, j)
    ensures r.None? ==> forall j :: 0 <= j <= |s| ==> !OccursAt(s, pat, j)
    decreases |s|
  {
    if |pat| <= |s| && s[..|pat|] == pat then Some(0)
    else if s == [] then None
    else
      var r := Find(s[1..], pat);
      forall j: nat | 1 <= j <= |s| ensures OccursAt(s, pat, j) <==> OccursAt(s[1..], pat, j - 1) {
        OccursShift(s, pat, j - 1);
      }
      assert !OccursAt(s, pat, 0);
      match r
      case None => None
      case Some(j) => Some(j + 1)
  }

  /** Python's `pat in s`: `pat` occurs at some position of `s`. */
  predicate Contains(s: string, pat: string)
  {
    exists i: nat :: i <= |s| && OccursAt(s, pat, i)
  }

  /** The search finds an occurrence exactly when there is one. */
  lemma FindContains(s: string, pat: string)
    ensures Find(s, pat).Some? <==> Contains(s, pat)
  {
  }

  // ---------------------------------------------------------------------------
  // Decimal numbers: str(n) and int(s)
  // ---------------------------------------------------------------------------

  predicate IsDigit(c: char)
  {
    '0' <= c <= '9'
  }

  predicate IsDigits(s: string)
  {
    forall i :: 0 <= i < |s| ==> IsDigit(s[i])
  }

  function DigitChar(d: nat): (c: char)
    requires d < 10
    ensures IsDigit(c)
  {
    ('0' as int + d) as char
  }

  /** The number a run of ASCII digits denotes. */
  function DigitsValue(s: string): nat
    requires IsDigits(s)
  {
    if s == [] then 0
    else
      assert IsDigit(s[|s| - 1]);
      10 * DigitsValue(s[..|s| - 1]) + (s[|s| - 1] as int - '0' as int)
  }

  /** Python's `str(n)` for `n >= 0`: its decimal digits, with no leading zero. */
  function NatToString(n: nat): (r: string)
    ensures r != [] && IsDigits(r)
    ensures r[0] == '0' ==> n == 0
  {
    if n < 10 then [DigitChar(n)] else NatToString(n / 10) + [DigitChar(n % 10)]
  }

  /** Reading back the digits of `str(n)` gives `n`. */
  lemma {:induction false} NatToStringValue(n: nat)
    ensures DigitsValue(NatToString(n)) == n
  {
    if n >= 10 {
      NatToStringValue(n / 10);
      var s := NatToString(n);
      assert s[..|s| - 1] == NatToString(n / 10);
    }
  }

  /** Distinct numbers have distinct decimal renderings. */
  lemma NatToStringInjective(m: nat, n: nat)
    requires NatToString(m) == NatToString(n)
    ensures m == n
  {
    NatToStringValue(m);
    NatToStringValue(n);
  }

  /**
   * Python's `int(s)` on a string: surrounding whitespace is ignored, an optional
   * sign is accepted, and what remains must be a non-empty run of ASCII digits;
   * anything else raises `ValueError`, modelled as `None`.
   */
  function ParseInt(s: string): (r: Option<int>)
    ensures r.Some? <==>
      var t := Strip(s);
      t != [] && (if t[0] == '+' || t[0] == '-' then t[1..] != [] && IsDigits(t[1..]) else IsDigits(t))
  {
    var t := Strip(s);
    if t != [] && (t[0] == '+' || t[0] == '-') then
      var d := t[1..];
      if d != [] && IsDigits(d) then
        var v: int := DigitsValue(d);
        Some(if t[0] == '-' then -v else v)
      else None
    else if t != [] && IsDigits(t) then Some(DigitsValue(t))
    else None
  }

  /** `int(str(n) + ws)` is `n` for any trailing whitespace, such as a line's newline. */
  lemma ParseIntOfDecimal(n: nat, ws: string)
    requires IsBlank(ws)
    ensures ParseInt(NatToString(n) + ws) == Some(n)
  {
    var d := NatToString(n);
    var s := d + ws;
    StripDigitsThenBlank(d, ws);
    NatToStringValue(n);
  }

  /** `int(d)` on a run of ASCII digits is the number they denote. */
  lemma ParseIntDigits(d: string)
    requires d != [] && IsDigits(d)
    ensures ParseInt(d) == Some(DigitsValue(d))
  {
    assert d + [] == d;
    StripDigitsThenBlank(d, []);
    assert Strip(d) == d;
    assert IsDigit(d[0]);
    assert d[0] != '+' && d[0] != '-';
  }

  /** A string that neither starts nor ends with whitespace is its own `strip()`. */
  lemma StripUnpadded(s: string)
    requires s != [] && !IsSpace(s[0]) && !IsSpace(s[|s| - 1])
    ensures Strip(s) == s
  {
    assert LeadingSpaces(s) == 0;
    assert s[0..] == s;
    assert TrailingSpaces(s) == 0;
  }

  lemma StripDigitsThenBlank(d: string, ws: string)
    requires d != [] && IsDigits(d)
    requires IsBlank(ws)
    ensures Strip(d + ws) == d
  {
    var s := d + ws;
    assert s[0] == d[0];
    assert LeadingSpaces(s) == 0;
    assert s[0..] == s;
    TrailingBlank(d, ws);
    assert s[..|d|] == d;
  }

  lemma {:induction false} TrailingBlank(d: string, ws: string)
    requires d != [] && !IsSpace(d[|d| - 1])
    requires IsBlank(ws)
    ensures TrailingSpaces(d + ws) == |ws|
    decreases |ws|
  {
    var s := d + ws;
    if ws == [] {
      assert s == d;
    } else {
      assert s[|s| - 1] == ws[|ws| - 1];
      assert s[..|s| - 1] == d + ws[..|ws| - 1];
      TrailingBlank(d, ws[..|ws| - 1]);
    }
  }

  // ---------------------------------------------------------------------------
  // str.splitlines()
  // ---------------------------------------------------------------------------

  /** The line boundaries Python's `str.splitlines` recognises (`\r\n` counts as one). */
  predicate IsLineBreak(c: char)
  {
    || c == '\n' || c == '\r' || c == '\U{b}' || c == '\U{c}'
    || '\U{1c}' <= c <= '\U{1e}'
    || c == '\U{85}' || c == '\U{2028}' || c == '\U{2029}'
  }

  /** No character of `s` is a line boundary. */
  predicate IsSingleLine(s: string)
  {
    forall i :: 0 <= i < |s| ==> !IsLineBreak(s[i])
  }

  function FirstLineBreak(s: string): (i: nat)
    ensures i <= |s|
    ensures IsSingleLine(s[..i])
    ensures i < |s| ==> IsLineBreak(s[i])
  {
    if s == [] || IsLineBreak(s[0]) then 0
    else
      var i := 1 + FirstLineBreak(s[1..]);
      assert s[..i] == [s[0]] + s[1..][..i - 1];
      i
  }

  /**
   * Python's `s.splitlines()`: the lines of `s` without their boundaries; a final
   * boundary does not start an extra empty line.
   */
  function SplitLines(s: string): (lines: seq<string>)
    ensures forall k :: 0 <= k < |lines| ==> IsSingleLine(lines[k])
    ensures lines == [] <==> s == []
    decreases |s|
  {
    if s == [] then []
    else
      var i := FirstLineBreak(s);
      if i == |s| then
        assert s[..i] == s;
        [s]
      else
        var w := if s[i] == '\r' && i + 1 < |s| && s[i + 1] == '\n' then 2 else 1;
        [s[..i]] + SplitLines(s[i + w..])
  }

  /** Every line followed by a newline, concatenated: the text a line-oriented writer emits. */
  function Terminated(lines: seq<string>): string
  {
    if lines == [] then [] else lines[0] + "\n" + Terminated(lines[1..])
  }

  /** Writing one more line appends it, with its newline, to the text. */
  lemma {:induction false} TerminatedSnoc(lines: seq<string>, line: string)
    ensures Terminated(lines + [line]) == Terminated(lines) + line + "\n"
  {
    if lines == [] {
      assert lines + [line] == [line];
      assert Terminated([line]) == line + "\n" + Terminated([]);
    } else {
      assert (lines + [line])[0] == lines[0];
      assert (lines + [line])[1..] == lines[1..] + [line];
      TerminatedSnoc(lines[1..], line);
    }
  }

  /** A non-empty text without a line break is one line. */
  lemma SplitLinesSingle(l: string)
    requires l != [] && IsSingleLine(l)
    ensures SplitLines(l) == [l]
  {
    assert FirstLineBreak(l) == |l|;
    assert l[..|l|] == l;
  }

  /** A break-free line followed by a newline is the first line of the text. */
  lemma SplitLinesCons(l: string, rest: string)
    requires IsSingleLine(l)
    ensures SplitLines(l + "\n" + rest) == [l] + SplitLines(rest)
  {
    var s := l + "\n" + rest;
    assert s[|l|] == '\n';
    assert FirstLineBreak(s) == |l|;
    assert s[..|l|] == l;
    assert s[|l| + 1..] == rest;
  }

  /** `splitlines()` recovers the lines of newline-terminated text. */
  lemma {:induction false} SplitLinesTerminated(lines: seq<string>)
    requires forall k :: 0 <= k < |lines| ==> IsSingleLine(lines[k])
    ensures SplitLines(Terminated(lines)) == lines
  {
    if lines != [] {
      var l := lines[0];
      var rest := Terminated(lines[1..]);
      SplitLinesCons(l, rest);
      SplitLinesTerminated(lines[1..]);
      assert lines == [l] + lines[1..];
    }
  }

  /**
   * `splitlines()` also recovers the lines when the last one has no line
   * break after it, as in a file whose final newline is missing.
   */
  lemma {:induction false} SplitLinesUnterminated(lines: seq<string>, last: string)
    requires forall k :: 0 <= k < |lines| ==> IsSingleLine(lines[k])
    requires last != [] && IsSingleLine(last)
    ensures SplitLines(Terminated(lines) + last) == lines + [last]
  {
    if lines == [] {
      assert Terminated(lines) + last == last;
      SplitLinesSingle(last);
    } else {
      var l := lines[0];
      var rest := Terminated(lines[1..]) + last;
      calc {
        SplitLines(Terminated(lines) + last);
        { assert Terminated(lines) + last == l + "\n" + rest; }
        SplitLines(l + "\n" + rest);
        { SplitLinesCons(l, rest); }
        [l] + SplitLines(rest);
        { SplitLinesUnterminated(lines[1..], last); }
        [l] + (lines[1..] + [last]);
        { assert lines == [l] + lines[1..]; }
        lines + [last];
      }
    }
  }
}

=== FILE: wrappers.dfy ===
/** Option and Result, the error-path carriers used throughout the model. */
module Wrappers {

  /** A value that may be absent (Python's `None`). */
  datatype Option<+T> = None | Some(value: T)

  /** The outcome of an operation that can raise: a value, or the error it raised. */
  datatype Result<+T, +E> = Ok(value: T) | Err(error: E)
}
